=== FILE: README.md ===
# PromptShare vote, star and listing model

A Dafny model of the behavioural core of PromptShare, a web application where
users publish prompts, vote on them, star and fork them, and browse them in
listings. The model covers:

- the server's vote endpoint and its create-prompt endpoint, with the vote
  relation, the score it recomputes and the status codes it answers;
- the client's optimistic handlers on the prompt card, in the `useStarCount`
  hook and on the prompt detail page, with their rollback paths;
- the listing filters and sorts of the home page, the categories page, the
  global search and the user profile pages;
- the masked API key, the profile page's guards and form validation rules,
  and the query parameters the prompt list is fetched with.

Modules follow the program's files:

- `Schema` holds the rows of `db/schema.ts`, the optional-value wrapper and the outcome of reading an HTTP reply.
- `Text` holds the string operations the client uses.
- `VoteServer` models `server/routes.ts`.
- `PromptCard`, `StarCountHook`, `PromptDetail`, `Listings`, `UserProfile`,
  `UserProfileBackup` and `PromptsQuery` model the client file of the same name.

Every operation is a pure function from the state before an event to the state
after it. Server responses, clocks and generated ids are inputs.

The vote relation is a map from (user, prompt) to a ballot. "At most one vote
per user per prompt" therefore holds by construction. The database schema has
no uniqueness constraint; the handler's lookup-then-write is what enforces it
there. The handler's score column `likes` is used but never declared in the
schema, so the model keeps it as an abstract optional integer on `Prompt`.

Two facts about the vote handler shape the client's findings below:

- The handler rejects every value other than 1 and -1 with 400
  (server/routes.ts:67-69), 0 included, so a vote is withdrawn only by
  repeating it.
- The handler answers `{ ok: true }` with no counts (server/routes.ts:115).

## Model

| member | source | states |
|---|---|---|
| `VoteServer.VoteRoute` | server/routes.ts:59-119 | The whole endpoint, route id included. A numeric id behaves as `VoteServer.Vote`. With a non-numeric id the store never changes: 401 without a session, 400 for a value other than 1 or -1, and otherwise 500 from the failing lookup. |
| `VoteServer.NonNumericIdChangesNothing` | server/routes.ts:64-78 | A non-numeric route id never changes the store and never succeeds. |
| `VoteServer.Vote` | server/routes.ts:59-119 | For a numeric route id: an unauthenticated request gets 401 and a value other than 1 or -1 (0 included) gets 400, both with no state change. A first vote is inserted, a repeated vote is deleted and a different vote is updated in place, and the vote count changes by +1, -1 or 0. Other (user, prompt) votes are untouched. The store stays valid. The voted prompt's score becomes the sum of its vote values and its other fields are kept. Other prompts are unchanged. |
| `VoteServer.Score` | server/routes.ts:104-113 | The score written for a prompt equals the SQL-style sum of the values of the votes on that prompt. |
| `VoteServer.SumIsTally` | server/routes.ts:105-108 | For ballots of 1 and -1, the sum of the vote values equals the number of promotes minus the number of downvotes. |
| `VoteServer.VotesOnOtherPromptUnchanged` | server/routes.ts:72-102 | A vote on one prompt leaves the set of votes on every other prompt exactly as it was. |
| `VoteServer.VoteKeepsScoresConsistent` | server/routes.ts:104-113 | If every prompt's score equals the sum of its votes before a request, the same holds after it, whatever the request. |
| `VoteServer.FirstVoteInserts` | server/routes.ts:93-102 | A first ballot from a user with no vote on the prompt adds exactly that one vote and keeps the store valid. |
| `VoteServer.SecondVoteWithdraws` | server/routes.ts:80-85 | Repeating the stored ballot deletes it, and the recomputed score returns to the score before the first ballot. |
| `VoteServer.VoteTwiceRestores` | server/routes.ts:80-102 | Voting v twice from "no vote" restores the original vote relation and the prompt's score. |
| `VoteServer.VoteSwitch` | server/routes.ts:86-91 | A promote followed by a downvote from the same user leaves exactly one downvote from that user. |
| `VoteServer.Promote` | server/routes.ts:93-102 | A promote by a user with no vote on an existing prompt succeeds and adds exactly that vote with value 1. |
| `VoteServer.PromoteStep` | server/routes.ts:93-113 | Such a promote raises the prompt's promote count by exactly one. |
| `VoteServer.DistinctPromotesAllCount` | server/routes.ts:72-113 | After distinct users with no vote on a prompt each promote it, each of them has a promote and no other vote changes. The promote count grows by the number of users. |
| `VoteServer.VoteReportingCounts` | server/routes.ts:115 | The corrected reply: the same transition and status as the handler, but a success answers the prompt's current promote and downvote counts. |
| `VoteServer.CreatePrompt` | server/routes.ts:39-56 | An unauthenticated request gets 401 with no change. A missing title or content makes the insert fail with 500. On success the stored prompt has the generated id and belongs to the caller. Every other column is the body's value when the body carries one, counters and score included. Absent columns take their defaults: version "1.0.0", zero promotes and downvotes. The creation time is the database clock. Votes are untouched. |
| `VoteServer.CreateIgnoresBodyOwner` | server/routes.ts:45-51 | Whatever `userId` the body carries, the request has the same outcome. |
| `VoteServer.CreateKeepsScoresConsistent` | server/routes.ts:45-51 | Creating a prompt from a body that carries no score keeps the store valid and every score consistent, because the new prompt has no votes. |
| `VoteServer.CreateWithCountersBreaksScores` | server/routes.ts:45-51 | On an empty store, a body with `likes: 5` and `upvotes: 42` creates a prompt with 42 promotes and a score that disagrees with its (empty) votes. |
| `VoteServer.CreatePromptFixed` | server/routes.ts:39-56 | Corrected: the same status and prompt as `CreatePrompt`, except that the counters always start at zero and no score. |
| `VoteServer.CreateFixedKeepsScoresConsistent` | server/routes.ts:45-51 | The corrected create keeps the store valid and every score consistent, whatever the body carries. |
| `PromptCard.InitialVoteView` | client/src/components/PromptCard.tsx:119-121 | The widget starts with no vote and with the prompt's counts, each defaulting to 0. |
| `PromptCard.NewVoteValue` | client/src/components/PromptCard.tsx:278 | The requested vote is 0 exactly when the click repeats the current vote, and otherwise the clicked direction. |
| `PromptCard.UpvoteDelta` | client/src/components/PromptCard.tsx:289-293 | For a widget vote of -1, 0 or 1 and a click of 1 or -1, the written delta equals [new vote = 1] - [old vote = 1]. |
| `PromptCard.DownvoteDelta` | client/src/components/PromptCard.tsx:294-298 | For a widget vote of -1, 0 or 1 and a click of 1 or -1, the written delta equals [new vote = -1] - [old vote = -1]. |
| `PromptCard.Optimistic` | client/src/components/PromptCard.tsx:287-298 | The optimistic widget takes the requested vote. A count that is not a number stays so; a number moves by [new = v] - [old = v]. |
| `PromptCard.HandleVote` | client/src/components/PromptCard.tsx:276-333 | As written: 0 is posted exactly when the click repeats the current vote, otherwise the click. On success the counts are whatever the reply carries. On failure the optimistic vote stays in place. |
| `PromptCard.HandleVoteFixed` | client/src/components/PromptCard.tsx:276-333 | Corrected: the clicked direction is always posted. On success the counts come from the reply. On failure the widget returns exactly to its state before the click. |
| `PromptCard.OptimisticDeltas` | client/src/components/PromptCard.tsx:288-298 | In all six (old vote, click) cases, the promote count moves by [new = 1] - [old = 1] and the downvote count by [new = -1] - [old = -1]. |
| `PromptCard.SameClickTwiceRestores` | client/src/components/PromptCard.tsx:278-298 | Clicking the same button twice from no vote, or from that same vote, returns the vote and both counts to where they started. |
| `PromptCard.OppositeClickTwiceWithdraws` | client/src/components/PromptCard.tsx:278-298 | From the opposite vote, two clicks on one button end with no vote. |
| `PromptCard.OptimisticStar` | client/src/components/PromptCard.tsx:348-349 | The optimistic star write flips the flag and moves the count by -1 from starred and +1 otherwise, so the count minus the user's own star is unchanged. |
| `PromptCard.OptimisticStarInvolution` | client/src/components/PromptCard.tsx:348-349 | Two optimistic star writes cancel out, and the count minus the user's own star is invariant. |
| `PromptCard.HandleStar` | client/src/components/PromptCard.tsx:345-377 | As written: on success the flag is the reply's and the count is the reply's or 0. On failure the count is restored but the flag stays flipped. |
| `PromptCard.HandleStarFixed` | client/src/components/PromptCard.tsx:366-369 | Corrected: a failure restores both the flag and the count. Success behaves as written. |
| `PromptCard.HandleFork` | client/src/components/PromptCard.tsx:379-409 | A successful fork adds exactly one to the count and marks the prompt forked. A failure changes nothing. |
| `PromptCard.ReplyOf` | client/src/components/PromptCard.tsx:310-317 | A non-2xx response is a failure. The handler's `{ok: true}` reads as a success without counts, and a reply with counts supplies them. |
| `PromptCard.RoundTrip` | client/src/components/PromptCard.tsx:300-318 | One click as written, against the server's handler. The widget always ends on the requested vote. A withdrawal never reaches the store. Any other click on an existing prompt is stored, and the widget loses both counts. Only the caller's vote on that prompt can change. |
| `PromptCard.RoundTripFixed` | client/src/components/PromptCard.tsx:300-318 | One click of the corrected card against the counting reply. On an existing prompt a repeat withdraws the stored vote and any other click casts it, and the widget's vote follows the click with numeric counts. A refused request leaves store and widget as they were. |
| `PromptCard.WithdrawalIsRejected` | client/src/components/PromptCard.tsx:278-307 | Withdrawing a stored vote posts 0. The server answers 400 and keeps the vote, while the card shows no vote. |
| `PromptCard.AcceptedVoteLosesCounts` | client/src/components/PromptCard.tsx:315-318 | A vote the server accepts is stored and shown, but both counts become undefined, because the reply carries none. |
| `PromptCard.FailedVoteKeepsOptimisticView` | client/src/components/PromptCard.tsx:281-331 | A failed vote leaves the optimistic widget, which always differs from the widget before the click. |
| `PromptCard.FixedRoundTripAgrees` | client/src/components/PromptCard.tsx:315-318 | With the corrected card and the counting reply, after any click the widget shows the stored vote and the prompt's true promote and downvote counts. |
| `PromptCard.StarFailureLeavesFlagFlipped` | client/src/components/PromptCard.tsx:366-369 | After a failed star request the count is back but the flag differs from the flag before the click. |
| `StarCountHook.OptimisticToggle` | client/src/hooks/use-star-count.ts:42-45 | The flag flips, and the count moves by -1 when it was starred and by +1 otherwise. |
| `StarCountHook.ToggleTwiceIsIdentity` | client/src/hooks/use-star-count.ts:42-45 | Applying the optimistic update twice is the identity. |
| `StarCountHook.ToggleKeepsOthersCount` | client/src/hooks/use-star-count.ts:42-45 | count - (isStarred ? 1 : 0) is invariant under the optimistic update. |
| `StarCountHook.MutationFn` | client/src/hooks/use-star-count.ts:24-33 | The mutation resolves exactly when the response is ok and its body parses. A non-ok response rejects with "Failed to update star", and an ok body that does not parse rejects with the parser's error. |
| `StarCountHook.ToggleStar` | client/src/hooks/use-star-count.ts:34-63 | The entry is always invalidated. With an empty cache no request is sent and the cache stays empty. A success (ok and parsed) leaves the optimistic state. A failure, non-ok or unparsable, restores exactly the snapshot taken before the optimistic write. |
| `StarCountHook.StarCount` | client/src/hooks/use-star-count.ts:60 | The exposed count is the cached one, 0 while nothing is cached. |
| `StarCountHook.IsStarred` | client/src/hooks/use-star-count.ts:61 | The exposed flag is the cached one, false while nothing is cached. |
| `StarCountHook.ToggleStarKeepsOthersCount` | client/src/hooks/use-star-count.ts:34-56 | Whether the request succeeds or fails, the other users' star count is the same before and after a toggle. |
| `StarCountHook.TwoSuccessfulTogglesRestore` | client/src/hooks/use-star-count.ts:34-61 | Two successful toggles give back the exposed count and flag, cached or not. |
| `PromptDetail.HandleStar` | client/src/pages/PromptDetail.tsx:29-54 | Only an accepted request flips the flag and moves the count by -1 or +1. A failed one leaves the button unchanged and shows the error message. The toast says "Unstarred" exactly when the button was starred before the click. |
| `PromptDetail.StarToastMatchesNewState` | client/src/pages/PromptDetail.tsx:40-46 | After an accepted star the toast's title names the state the button has reached. |
| `PromptDetail.TwoAcceptedStarsRestore` | client/src/pages/PromptDetail.tsx:40-41 | Two accepted stars return the button to its starting state. |
| `PromptDetail.HandleFork` | client/src/pages/PromptDetail.tsx:81-105 | An accepted fork adds one to the count. A failed one leaves it unchanged and shows the error. |
| `PromptDetail.ForkAllCountsAccepted` | client/src/pages/PromptDetail.tsx:81-105 | After any series of fork requests the count has grown by the number of accepted ones; failed ones add nothing. |
| `PromptDetail.CardAndDetailForkAgree` | client/src/pages/PromptDetail.tsx:88-92 | The detail page's fork button and the prompt card's fork handler give the same count for the same answer. |
| `PromptDetail.Render` | client/src/pages/PromptDetail.tsx:221-240 | Loading shows the spinner first. Then a missing prompt shows "not found". Only then is a non-numeric id reported, and otherwise the detail of that id is shown. |
| `Listings.Filter` | client/src/pages/HomePage.tsx:39 | `Array.prototype.filter`: the result is a subsequence of the input in which every element passes. Every passing element of the input is kept, with its multiplicity. |
| `Listings.SortDesc` | client/src/pages/HomePage.tsx:40 | The result is ordered from the highest key to the lowest and is a permutation of the input. |
| `Listings.Trending` | client/src/pages/HomePage.tsx:39-43 | The trending tab lists exactly the prompts with (likes ?? 0) > 0. It is ordered from the highest score down and is a permutation of the filtered prompts. It is empty while the prompts are undefined. |
| `Listings.Recent` | client/src/pages/HomePage.tsx:49-51 | The recent tab is a permutation of all prompts, newest first, and empty while the prompts are undefined. |
| `Listings.CategoryFilter` | client/src/pages/CategoriesPage.tsx:30-34 | The categories page lists a subsequence of the prompts. Each listed prompt has the selected category among its tags (or no category is selected) and contains the term in its title or content, ignoring case. Every prompt meeting both conditions is listed, as many times as it occurs in the input. |
| `Listings.NoCriteriaKeepsAll` | client/src/pages/CategoriesPage.tsx:30-34 | With no category and an empty search every prompt is listed, in order. |
| `Listings.ShowsNoMatches` | client/src/pages/CategoriesPage.tsx:84 | The message condition holds exactly for a loaded, empty list; an undefined list shows nothing. |
| `Listings.NoMatchesMessage` | client/src/pages/CategoriesPage.tsx:84 | The "no prompts found" message appears exactly when the prompts have arrived and none of them matches. |
| `Listings.SearchResults` | client/src/components/GlobalSearch.tsx:15-19 | The results are a subsequence of the prompts. A prompt is listed exactly when its title, content or present description contains the term, ignoring case, and as many times as it occurs in the input. Undefined prompts give no results. |
| `Listings.EmptyTermMatchesAll` | client/src/components/GlobalSearch.tsx:15-19 | An empty term lists every prompt in order. |
| `Listings.ShowsResults` | client/src/components/GlobalSearch.tsx:46 | The results section is rendered exactly for a non-empty term. |
| `Listings.HiddenResultsWouldListAll` | client/src/components/GlobalSearch.tsx:46 | The results section is hidden only for an empty term, and that term would list every prompt. |
| `Text.Lower` | client/src/pages/CategoriesPage.tsx:32 | Lower-casing keeps the length and lowers each ASCII letter in place. |
| `Text.Contains` | client/src/pages/CategoriesPage.tsx:32-33 | `includes` needs room for the needle, and the empty needle is found in every string. |
| `Text.ContainsIffOccurs` | client/src/pages/CategoriesPage.tsx:32-33 | `includes` holds exactly when the needle occurs at some position of the haystack. |
| `Text.Slice` | client/src/components/UserProfile.tsx:62 | `slice(start)`: a negative start counts from the end and is clamped at 0, and a start beyond the end gives "". |
| `Text.NatToString` | backup/client/src/components/UserProfile.tsx:63 | A non-negative status renders as a non-empty string of decimal digits that denotes it, with no leading zero except for 0 itself. |
| `UserProfile.MaskApiKey` | client/src/components/UserProfile.tsx:61-63 | The mask is "sk-..." followed by the key's last four characters, or the whole key when it is shorter. Its length is 6 + min(4, length of the key). |
| `UserProfile.MaskRevealsAtMostFour` | client/src/components/UserProfile.tsx:61-63 | The mask reveals at most four characters of the key, all from its end. |
| `UserProfile.ShownApiKey` | client/src/components/UserProfile.tsx:98-102 | A key is shown exactly when the user has a non-empty key. It is shown in full when `showApiKey` is set and masked otherwise. |
| `UserProfile.UserPrompts` | client/src/components/UserProfile.tsx:32 | The listed prompts are exactly those whose userId is the signed-in user's, in order and with their multiplicity. The list is empty while the prompts or the user are undefined. |
| `UserProfileBackup.FetchUserProfile` | backup/client/src/components/UserProfile.tsx:42-85 | A non-numeric id fails with "Invalid user ID" before any request, and the profile is null. A profile is set exactly when the response is ok, is JSON and carries a user with a numeric id. A 404 gives "User not found". Every other failure sets a non-empty error and a null profile. |
| `UserProfileBackup.ProfileAfterEffect` | backup/client/src/components/UserProfile.tsx:87-92 | A route id loads that profile. Without one the signed-in user is shown. With neither the profile is kept. |
| `UserProfileBackup.ListedOwner` | backup/client/src/components/UserProfile.tsx:94 | The prompts listed are the profile user's, falling back to the signed-in user's. |
| `UserProfileBackup.UserPrompts` | backup/client/src/components/UserProfile.tsx:94 | The listed prompts are exactly those of the profile user, or of the signed-in user when no profile is loaded, in order and with their multiplicity. The list is empty without prompts or without either user. |
| `UserProfileBackup.OwnProfileListsSamePrompts` | backup/client/src/components/UserProfile.tsx:94 | On one's own profile both versions of the page list the same prompts. |
| `UserProfileBackup.IsOwnProfile` | backup/client/src/components/UserProfile.tsx:95 | The profile counts as one's own exactly when both users are absent or both are present with the same id. |
| `UserProfileBackup.SaveApiKey` | backup/client/src/components/UserProfile.tsx:95-124 | A key is posted exactly when the profile is the signed-in user's own. Otherwise nothing happens. The dialog closes only when the server accepts the key. |
| `UserProfileBackup.OthersProfileNeverSaves` | backup/client/src/components/UserProfile.tsx:95-98 | On another user's profile the save is a no-op. |
| `UserProfileBackup.NoUsersPassesGuard` | backup/client/src/components/UserProfile.tsx:95-98 | With neither user known, the ownership guard compares undefined with undefined and lets the save through. |
| `UserProfileBackup.OthersProfileHidesKey` | backup/client/src/components/UserProfile.tsx:232-393 | On another user's profile no key is shown, whatever that user's record holds. |
| `UserProfileBackup.LoadingProfileHidesKey` | backup/client/src/components/UserProfile.tsx:95 | While a route profile is loading, the page shows the signed-in user but not their key, since `isOwnProfile` compares an absent id with a present one. |
| `UserProfileBackup.ProfileWithoutRouteIdIsOwn` | backup/client/src/components/UserProfile.tsx:87-96 | Without a route id and with a signed-in user, the effect makes the page the user's own profile: it shows them and their key as the profile card would. |
| `UserProfileBackup.Render` | backup/client/src/components/UserProfile.tsx:130-134 | "Loading..." is shown exactly when neither user is known. Otherwise the profile user is shown, falling back to the signed-in user. |
| `UserProfileBackup.ShownApiKey` | backup/client/src/components/UserProfile.tsx:232-353 | The key is shown only on one's own profile, where the API tab exists. There it is the displayed user's key, shown exactly as the profile card does, full or masked. Another user's profile, the signed-in user shown while a route profile loads, and the "Loading..." page show no key. |
| `UserProfileBackup.ProfileIssues` | backup/client/src/components/UserProfile.tsx:136-140 | The profile form is valid exactly when the email is valid and name and surname have at least 2 characters. There is one issue per failing field: "Invalid email" exactly for an invalid email, and a too-short issue exactly for a short name or surname. The issues come in field order: email, name, surname. |
| `UserProfileBackup.SecurityIssues` | backup/client/src/components/UserProfile.tsx:142-149 | The password form is valid exactly when both passwords have at least 6 characters and the confirmation equals the new password. A mismatch is reported on `confirmPassword` with "Passwords don't match", and each short password gets its own issue. |
| `PromptsQuery.QueryParams` | client/src/hooks/use-prompts.ts:29-33 | `sort` is always sent first and defaults to "recent". `search` is sent exactly when non-empty, with its value. `category` is never sent. |
| `PromptsQuery.CategoryIsIgnored` | client/src/hooks/use-prompts.ts:26-33 | Option sets that differ only in the category request the same parameters. |
| `PromptsQuery.FetchPrompts` | client/src/hooks/use-prompts.ts:29-40 | The request carries the options' query parameters. The fetch yields prompts exactly when the response is ok and its body parses, and then yields the parsed body unchanged. A non-ok response fails with "Failed to fetch prompts", and an ok body that does not parse fails with the parser's error. |
| `PromptsQuery.FetchIgnoresCategory` | client/src/hooks/use-prompts.ts:26-40 | Changing only the category changes neither the request nor the result. |
| `PromptsQuery.OptionsOnlyShapeRequest` | client/src/hooks/use-prompts.ts:35-39 | The result does not depend on the options: the client neither sorts nor filters what the server returns. |

## Left out

- JSX rendering, dialogs, toast styling, navigation and routing: presentation only. Toast titles and messages are modelled on the prompt detail page only.
- `fetch`, react-query's cache machinery and `setupAuth`: network and library plumbing. Server answers are inputs of each handler, and the refetch that follows an invalidation is not modelled.
- The comment, copy and test handlers of the prompt card, and `POST /api/test-prompt`: they make no decision beyond forwarding a request.
- `GET /api/prompts`: a plain select with a join. It ignores the `sort` and `search` parameters, and there is no ranking formula to model.
- The star, stars, fork and forks endpoints the client calls: `server/routes.ts` does not define them. Their answers are inputs.
- Transactions and concurrent voters: the handler uses no transaction, so the model is one request at a time.
- The chained `.where` calls of the vote lookup are modelled as the intended conjunction (same user and same prompt). The ORM's chaining semantics are not part of this model.
- `VoteServer.Vote`: the handler refers to `votes`, `sql` and `prompts.likes` without importing or declaring them. The model gives them their evident meaning instead of a reference error. The `likes` score is an abstract field on `Prompt`, and the sum is an integer, not the string a SQL `sum` returns.
- `VoteServer.Vote`: a missing prompt with no existing vote is a foreign-key violation answered with 500. Deleting or updating an existing vote on a missing prompt succeeds without a score write, as the update then matches no row.
- `VoteServer.CreatePrompt`: only a missing title or content makes the insert fail. Type errors in other body fields, unknown fields, a body `id` (refused by the identity column) and `updatedAt` are not modelled. A body `createdAt` is not modelled: JSON can carry it only as a string or a number, not as the date the timestamp column takes, so the model always stamps the database clock. A column the body sets to `null` is treated like an absent one, so the model applies the default where the database would store `null`. The body's `likes` is stored like any column, as the model treats the score as a column of `prompts`.
- `parseInt`, `Number` and `Date` parsing: they are inputs (`Option<int>` for a parse that may give `NaN`, an integer timestamp for a date). `VoteServer.Vote` takes the parsed route id; `VoteServer.VoteRoute` adds the `NaN` case.
- `UserProfileBackup.FetchUserProfile`: a body that `response.json()` cannot parse raises the parser's own error message, which belongs to the runtime; the model reports it as "Invalid user data received", like a body without a numeric id.
- Percent-encoding by `URLSearchParams`: the parameters are kept as key/value pairs.
- `UserProfileBackup.Render`: each render is modelled on its own. In the source the early "Loading..." return (backup/client/src/components/UserProfile.tsx:130-132) comes before the two `useForm` hooks (lines 151 and 160). So the first render that shows a user after a "Loading..." render calls more hooks than the one before, and React throws instead of showing the user. This happens, for example, when `/profile/:id` is reloaded. The model's "otherwise the profile user is shown" holds only for a page whose first render already had a user.
- Zod's `.email()` check: its outcome is an input of `UserProfileBackup.ProfileIssues`, whose "Invalid email" message is a placeholder for the library's.
- Unicode `toLowerCase`: only ASCII letters are lowered.
- `Text.Slice`: positions count Unicode characters, while JavaScript's `slice` counts UTF-16 code units. A string with characters outside the Basic Multilingual Plane starts the slice elsewhere, and JavaScript can even split such a character in half, which a Dafny string cannot hold.
- `UserProfile.MaskApiKey`: the last four characters and the length 6 + min(4, length) count Unicode characters, not the UTF-16 code units `apiKey.slice(-4)` counts, so a key ending in an emoji is masked differently.
- `UserProfileBackup.ProfileIssues`: "at least 2 characters" counts Unicode characters, while zod's `.min(2)` counts UTF-16 code units, so a single character outside the Basic Multilingual Plane passes zod but not the model.
- `UserProfileBackup.SecurityIssues`: "at least 6 characters" counts Unicode characters, while zod's `.min(6)` counts UTF-16 code units, so a password of three emoji passes zod but not the model.
- `Listings.SortDesc`: its contract states order and permutation; stability (equal keys keep their input order) holds by construction of the insertion but is not stated.
- `Listings.Recent`: `prompts?.sort` sorts the cached array in place, which also reorders the array other components read. Only the returned order is modelled.
- The categories page's tag test: the database column `tags` is `text`, while the client's type says `string[]`. The model follows the client's type, so `includes` is membership in a list, not a substring test.
- `PromptCard`: the loading fetches of `/vote-state`, `/stars` and `/forks` (client/src/components/PromptCard.tsx:133-209) are not modelled; the widget's vote, star flag and counts are inputs. `server/routes.ts` does not define `/vote-state`, so on a reload the widget starts with no vote. `PromptCard.WithdrawalIsRejected` and `PromptCard.AcceptedVoteLosesCounts` take the widget's vote to equal the stored one, which after a reload only that missing endpoint would make true.
- `PromptCard`: the handlers' toasts, `console.error` and the `navigate` call after a fork are left out as side effects. The vote failure message depends on which parse of the error body throws, and the star toast's title follows the reply's `starred`.
- `server/openai.ts`, the database migrations and the mock and placeholder components at the repository root: network clients, SQL DDL and static UI.

## Findings

| source | as written | input that shows it | evidently intended | confidence | as-written member | corrected member |
|---|---|---|---|---|---|---|
| client/src/components/PromptCard.tsx:278 | clicking the current vote posts `{value: 0}`, which the handler rejects with 400 (server/routes.ts:67-69) | a user with a stored promote clicks promote again | post the clicked direction and let the server delete the repeated vote | high, not executed | `PromptCard.WithdrawalIsRejected` | `PromptCard.FixedRoundTripAgrees` |
| client/src/components/PromptCard.tsx:315-317 | the card reads `data.upvotes` and `data.downvotes`, but the server answers only `{ ok: true }` (server/routes.ts:115) | any accepted vote, e.g. a first promote on an existing prompt | the reply carries the prompt's fresh promote and downvote counts | high, not executed | `PromptCard.AcceptedVoteLosesCounts` | `VoteServer.VoteReportingCounts` |
| client/src/components/PromptCard.tsx:281-331 | `previousState` is declared inside `try` and read in `catch`, so the revert throws and the optimistic vote stays | any vote whose request fails, e.g. the 400 of the first row | restore the snapshot taken before the optimistic write | high, not executed | `PromptCard.FailedVoteKeepsOptimisticView` | `PromptCard.HandleVoteFixed` |
| server/routes.ts:45-51 | the body is spread into the new row, so a client can set the counters and the score a new prompt starts with | `{title: "t", content: "c", likes: 5, upvotes: 42}` on a store with no votes | drop client-supplied counters, as `userId` is already overridden | medium, not executed | `VoteServer.CreateWithCountersBreaksScores` | `VoteServer.CreatePromptFixed` |
| client/src/components/PromptCard.tsx:368 | the revert writes `!isStarred` with the flag captured at the start, which is the optimistic flag again | an unstarred prompt whose star request fails: the count returns but the flag shows starred | write back the flag from before the click | high, not executed | `PromptCard.StarFailureLeavesFlagFlipped` | `PromptCard.HandleStarFixed` |

=== FILE: listings.dfy ===
/**
 The client-side prompt listings: the home page's trending and recent tabs,
 the categories page's category-and-search filter and the global search box.
 All of them are filters and stable sorts over the fetched prompt array; an
 array that has not arrived yet (`undefined`) is `None`.
 */
module Listings {
  import opened Schema
  import opened Text

  /** `a` is `b` with some elements left out and the rest in their original order. */
  ghost predicate IsSubsequence(a: seq<Prompt>, b: seq<Prompt>)
    decreases |b|
  {
    || |a| == 0
    || (|b| > 0 && ((a[0] == b[0] && IsSubsequence(a[1..], b[1..])) || IsSubsequence(a, b[1..])))
  }

  /** `s.filter(keep)`: the prompts of `s` that satisfy `keep`, in order. */
  function Filter(s: seq<Prompt>, keep: Prompt -> bool): (r: seq<Prompt>)
    ensures IsSubsequence(r, s)
    ensures forall p :: p in r ==> keep(p)
    ensures forall p :: multiset(r)[p] == if keep(p) then multiset(s)[p] else 0
    ensures forall p :: p in s && keep(p) ==> p in r
    decreases |s|
  {
    if |s| == 0 then []
    else
      assert s == [s[0]] + s[1..];
      var rest := Filter(s[1..], keep);
      if keep(s[0]) then [s[0]] + rest else rest
  }

  /** A filter that keeps everything returns its input. */
  lemma {:induction false} FilterKeepsAll(s: seq<Prompt>, keep: Prompt -> bool)
    requires forall p :: p in s ==> keep(p)
    ensures Filter(s, keep) == s
    decreases |s|
  {
    if |s| > 0 {
      FilterKeepsAll(s[1..], keep);
    }
  }

  /** `s` is ordered from the highest `key` to the lowest. */
  ghost predicate SortedDesc(s: seq<Prompt>, key: Prompt -> int) {
    forall i, j :: 0 <= i < j < |s| ==> key(s[i]) >= key(s[j])
  }

  /** Insert `x` into a descending sequence after every element whose key is at least `x`'s. */
  function Insert(x: Prompt, s: seq<Prompt>, key: Prompt -> int): (r: seq<Prompt>)
    requires SortedDesc(s, key)
    ensures SortedDesc(r, key)
    ensures multiset(r) == multiset(s) + multiset{x}
    ensures forall y :: y in r ==> y == x || y in s
    decreases |s|
  {
    if |s| == 0 then [x]
    else if key(s[0]) >= key(x) then
      assert s == [s[0]] + s[1..];
      var rest := Insert(x, s[1..], key);
      assert forall y :: y in rest ==> key(s[0]) >= key(y);
      [s[0]] + rest
    else [x] + s
  }

  /**
   `s.sort((a, b) => key(b) - key(a))`: a stable sort from the highest key to
   the lowest (JavaScript's sort is stable), as an insertion sort that takes
   the elements in their original order.
   */
  function SortDesc(s: seq<Prompt>, key: Prompt -> int): (r: seq<Prompt>)
    ensures SortedDesc(r, key)
    ensures multiset(r) == multiset(s)
    decreases |s|
  {
    if |s| == 0 then []
    else
      assert s == s[..|s| - 1] + [s[|s| - 1]];
      Insert(s[|s| - 1], SortDesc(s[..|s| - 1], key), key)
  }

  /** The score the trending tab ranks by: `likes ?? 0`. */
  function Likes(p: Prompt): int {
    p.likes.GetOr(0)
  }

  /** The time the recent tab ranks by: `new Date(createdAt).getTime()`. */
  function CreatedAt(p: Prompt): int {
    p.createdAt
  }

  /** Whether the trending tab lists a prompt: it has a positive score. */
  predicate IsTrending(p: Prompt) {
    Likes(p) > 0
  }

  /** The home page's trending tab: prompts with a positive score, highest score first. */
  function Trending(prompts: Option<seq<Prompt>>): (r: seq<Prompt>)
    ensures prompts.None? ==> r == []
    ensures prompts.Some? ==> forall p :: p in r <==> p in prompts.value && Likes(p) > 0
    ensures SortedDesc(r, Likes)
    ensures prompts.Some? ==> multiset(r) == multiset(Filter(prompts.value, IsTrending))
  {
    match prompts
    case None => []
    case Some(s) => SortDesc(Filter(s, IsTrending), Likes)
  }

  /** The home page's recent tab: every prompt, newest first. */
  function Recent(prompts: Option<seq<Prompt>>): (r: seq<Prompt>)
    ensures prompts.None? ==> r == []
    ensures prompts.Some? ==> multiset(r) == multiset(prompts.value)
    ensures SortedDesc(r, CreatedAt)
  {
    match prompts
    case None => []
    case Some(s) => SortDesc(s, CreatedAt)
  }

  /**
   The categories page's predicate: an empty category or one of the prompt's
   tags, and the search term in the title or the content, ignoring case.
   */
  predicate InCategoryAndSearch(p: Prompt, category: string, term: string) {
    && (category == "" || (p.tags.Some? && category in p.tags.value))
    && (ContainsIgnoreCase(p.title, term) || ContainsIgnoreCase(p.content, term))
  }

  /** The categories page's `filteredPrompts`; still undefined while the prompts are. */
  function CategoryFilter(prompts: Option<seq<Prompt>>, category: string, term: string): (r: Option<seq<Prompt>>)
    ensures r.None? <==> prompts.None?
    ensures r.Some? ==> IsSubsequence(r.value, prompts.value)
    ensures r.Some? ==> forall p :: p in r.value ==>
      (category == "" || (p.tags.Some? && category in p.tags.value))
      && (ContainsIgnoreCase(p.title, term) || ContainsIgnoreCase(p.content, term))
    ensures r.Some? ==> forall p :: p in prompts.value && InCategoryAndSearch(p, category, term) ==> p in r.value
    // Each matching prompt is listed as often as it occurs, and no other one.
    ensures r.Some? ==> forall p ::
      multiset(r.value)[p] == if InCategoryAndSearch(p, category, term) then multiset(prompts.value)[p] else 0
  {
    match prompts
    case None => None
    case Some(s) => Some(Filter(s, p => InCategoryAndSearch(p, category, term)))
  }

  /** With no category selected and an empty search, the categories page lists every prompt. */
  lemma {:induction false} NoCriteriaKeepsAll(s: seq<Prompt>)
    ensures CategoryFilter(Some(s), "", "") == Some(s)
  {
    FilterKeepsAll(s, p => InCategoryAndSearch(p, "", ""));
  }

  /** `filteredPrompts?.length === 0`: the "no prompts found" message. */
  predicate ShowsNoMatches(filtered: Option<seq<Prompt>>)
    // `undefined === 0` is false: nothing shows while the prompts are loading.
    ensures ShowsNoMatches(filtered) <==> filtered == Some([])
  {
    filtered.Some? && |filtered.value| == 0
  }

  /** The "no prompts found" message appears exactly when prompts have arrived and none of them matches. */
  lemma NoMatchesMessage(s: seq<Prompt>, category: string, term: string)
    ensures ShowsNoMatches(CategoryFilter(Some(s), category, term))
      <==> forall p :: p in s ==> !InCategoryAndSearch(p, category, term)
  {
    var r := CategoryFilter(Some(s), category, term).value;
    if |r| > 0 {
      assert r[0] in r;
    }
  }

  /** The global search's predicate: title, content or a present description contains the term, ignoring case. */
  predicate SearchMatches(p: Prompt, term: string) {
    || ContainsIgnoreCase(p.title, term)
    || ContainsIgnoreCase(p.content, term)
    || (p.description.Some? && ContainsIgnoreCase(p.description.value, term))
  }

  /** The global search's `filteredResults`: `[]` while the prompts are undefined. */
  function SearchResults(prompts: Option<seq<Prompt>>, term: string): (r: seq<Prompt>)
    ensures prompts.None? ==> r == []
    ensures prompts.Some? ==> IsSubsequence(r, prompts.value)
    ensures prompts.Some? ==> forall p :: p in prompts.value ==> (p in r <==> SearchMatches(p, term))
    ensures prompts.Some? ==> forall p :: multiset(r)[p] == if SearchMatches(p, term) then multiset(prompts.value)[p] else 0
  {
    match prompts
    case None => []
    case Some(s) => Filter(s, p => SearchMatches(p, term))
  }

  /** An empty search term matches every prompt. */
  lemma {:induction false} EmptyTermMatchesAll(s: seq<Prompt>)
    ensures SearchResults(Some(s), "") == s
  {
    FilterKeepsAll(s, p => SearchMatches(p, ""));
  }

  /** The results section is rendered only for a non-empty search term. */
  predicate ShowsResults(term: string)
    ensures ShowsResults(term) <==> |term| > 0
  {
    term != ""
  }

  /** When the results section is hidden the term is empty, and that term would list every prompt. */
  lemma {:induction false} HiddenResultsWouldListAll(s: seq<Prompt>, term: string)
    ensures !ShowsResults(term) ==> SearchResults(Some(s), term) == s
  {
    if !ShowsResults(term) {
      EmptyTermMatchesAll(s);
    }
  }
}

=== FILE: prompt_card.dfy ===
/**
 The prompt card's optimistic vote, star and fork handlers. Each handler is a
 pure transition from the card's state before the click and the server's reply
 to the state after the handler finishes. The reply is an input: success with
 whatever fields the response body carries, or failure.

 `HandleVote` and `HandleStar` are the handlers as written; `HandleVoteFixed`
 and `HandleStarFixed` are the evidently intended ones, and the lemmas at the
 end of the module compare the client with the server's vote handler.
 */
module PromptCard {
  import opened Schema
  import VoteServer

  /**
   The vote widget: `hasVoted` is 1, -1 or 0 (no vote); the counts are what
   the card shows, with None standing for a count that is not a number
   (`undefined`, or `NaN` after arithmetic on `undefined`).
   */
  datatype VoteView = VoteView(hasVoted: int, upvotes: Option<int>, downvotes: Option<int>)

  /**
   What the vote request yields: a response that is ok and parses as JSON,
   with its `upvotes` and `downvotes` fields when present, or a failure
   (non-ok status, unparsable body or network error).
   */
  datatype VoteReply = VoteOk(upvotes: Option<int>, downvotes: Option<int>) | VoteFailed

  /** What one click produces: the value posted to the server and the widget afterwards. */
  datatype VoteStep = VoteStep(posted: int, view: VoteView)

  /** The star button: whether the user has starred the prompt and the shown count. */
  datatype StarView = StarView(isStarred: bool, count: int)

  /** The star request: ok with `data.starred` and `data.count` (absent when missing), or a failure. */
  datatype StarReply = StarOk(starred: bool, count: Option<int>) | StarFailed

  /** The fork button: the shown fork count and whether the user has forked the prompt. */
  datatype ForkView = ForkView(forkCount: int, isForked: bool)

  /** 1 when `b` holds, else 0. */
  function Ind(b: bool): int {
    if b then 1 else 0
  }

  /** `prev + d` on a count that may already be not a number. */
  function Plus(n: Option<int>, d: int): Option<int> {
    match n
    case Some(x) => Some(x + d)
    case None => None
  }

  /** The widget when the card mounts: no vote, and the prompt's counts defaulting to 0. */
  function InitialVoteView(p: Prompt): (v: VoteView)
    ensures v.hasVoted == 0 && v.upvotes.Some? && v.downvotes.Some?
    ensures p.upvotes.Some? ==> v.upvotes == p.upvotes
    ensures p.upvotes.None? ==> v.upvotes == Some(0)
    ensures p.downvotes.Some? ==> v.downvotes == p.downvotes
    ensures p.downvotes.None? ==> v.downvotes == Some(0)
  {
    VoteView(0, Some(p.upvotes.GetOr(0)), Some(p.downvotes.GetOr(0)))
  }

  /** The vote the click asks for: clicking the current vote withdraws it (0), any other click casts that vote. */
  function NewVoteValue(hasVoted: int, click: int): (r: int)
    ensures r == 0 <==> hasVoted == click || click == 0
    ensures r != 0 ==> r == click
  {
    if hasVoted == click then 0 else click
  }

  /**
   The change the handler makes to the promote count, as written in the
   handler; for a widget vote and a click it is [new vote = 1] - [old vote = 1].
   */
  function UpvoteDelta(hasVoted: int, click: int): (d: int)
    ensures hasVoted in {-1, 0, 1} && VoteServer.IsBallot(click) ==>
      d == Ind(NewVoteValue(hasVoted, click) == 1) - Ind(hasVoted == 1)
  {
    if click == 1 then (if NewVoteValue(hasVoted, click) == 1 then 1 else -1)
    else (if hasVoted == 1 then -1 else 0)
  }

  /**
   The change the handler makes to the downvote count, as written in the
   handler; for a widget vote and a click it is [new vote = -1] - [old vote = -1].
   */
  function DownvoteDelta(hasVoted: int, click: int): (d: int)
    ensures hasVoted in {-1, 0, 1} && VoteServer.IsBallot(click) ==>
      d == Ind(NewVoteValue(hasVoted, click) == -1) - Ind(hasVoted == -1)
  {
    if click == -1 then (if NewVoteValue(hasVoted, click) == -1 then 1 else -1)
    else (if hasVoted == -1 then -1 else 0)
  }

  /** The optimistic widget the handler writes before it sends the request. */
  function Optimistic(view: VoteView, click: int): (o: VoteView)
    ensures o.hasVoted == NewVoteValue(view.hasVoted, click)
    // A count that is not a number stays so; a number moves by the delta.
    ensures o.upvotes.Some? <==> view.upvotes.Some?
    ensures o.downvotes.Some? <==> view.downvotes.Some?
    ensures view.hasVoted in {-1, 0, 1} && VoteServer.IsBallot(click) && view.upvotes.Some? ==>
      o.upvotes.value == view.upvotes.value + Ind(o.hasVoted == 1) - Ind(view.hasVoted == 1)
    ensures view.hasVoted in {-1, 0, 1} && VoteServer.IsBallot(click) && view.downvotes.Some? ==>
      o.downvotes.value == view.downvotes.value + Ind(o.hasVoted == -1) - Ind(view.hasVoted == -1)
  {
    VoteView(
      NewVoteValue(view.hasVoted, click),
      Plus(view.upvotes, UpvoteDelta(view.hasVoted, click)),
      Plus(view.downvotes, DownvoteDelta(view.hasVoted, click)))
  }

  /**
   `handleVote` as written. The body posted is `{value: newVoteValue}`; on
   success the counts are replaced by the reply's fields. On failure the
   `catch` block reads `previousState`, a constant declared inside the `try`
   block and out of scope there, so the revert throws before it writes
   anything and the optimistic widget stays.
   */
  function HandleVote(view: VoteView, click: int, reply: VoteReply): (r: VoteStep)
    requires VoteServer.IsBallot(click)
    ensures r.posted == 0 <==> view.hasVoted == click
    ensures r.posted != 0 ==> r.posted == click
    ensures reply.VoteOk? ==> r.view == VoteView(r.posted, reply.upvotes, reply.downvotes)
    ensures reply.VoteFailed? ==> r.view.hasVoted == r.posted && r.view.hasVoted != view.hasVoted
  {
    var newVote := NewVoteValue(view.hasVoted, click);
    var optimistic := Optimistic(view, click);
    match reply
    case VoteOk(up, down) => VoteStep(newVote, VoteView(newVote, up, down))
    case VoteFailed => VoteStep(newVote, optimistic)
  }

  /**
   The evidently intended `handleVote`: the clicked direction is posted (the
   server's handler itself withdraws a repeated vote), and a failure restores
   the snapshot taken before the optimistic write.
   */
  function HandleVoteFixed(view: VoteView, click: int, reply: VoteReply): (r: VoteStep)
    requires VoteServer.IsBallot(click)
    ensures r.posted == click
    ensures reply.VoteOk? ==> r.view == VoteView(NewVoteValue(view.hasVoted, click), reply.upvotes, reply.downvotes)
    ensures reply.VoteFailed? ==> r.view == view
  {
    match reply
    case VoteOk(up, down) => VoteStep(click, VoteView(NewVoteValue(view.hasVoted, click), up, down))
    case VoteFailed => VoteStep(click, view)
  }

  /** Every optimistic count moves by [new vote = v] - [old vote = v], in all six (old, click) cases. */
  lemma OptimisticDeltas(view: VoteView, click: int)
    requires view.hasVoted in {-1, 0, 1} && VoteServer.IsBallot(click)
    ensures var o := Optimistic(view, click);
      && o.upvotes == Plus(view.upvotes, Ind(o.hasVoted == 1) - Ind(view.hasVoted == 1))
      && o.downvotes == Plus(view.downvotes, Ind(o.hasVoted == -1) - Ind(view.hasVoted == -1))
      && o.hasVoted in {-1, 0, 1}
  {
  }

  /** Clicking the same button twice from no vote, or from that same vote, returns the widget to where it started. */
  lemma {:induction false} SameClickTwiceRestores(view: VoteView, click: int)
    requires VoteServer.IsBallot(click) && (view.hasVoted == 0 || view.hasVoted == click)
    ensures Optimistic(Optimistic(view, click), click) == view
  {
    var o := Optimistic(view, click);
    OptimisticDeltas(view, click);
    OptimisticDeltas(o, click);
    assert o.hasVoted == (if view.hasVoted == 0 then click else 0);
  }

  /** From the opposite vote, clicking one button twice ends with no vote: the second click withdraws the first. */
  lemma OppositeClickTwiceWithdraws(view: VoteView, click: int)
    requires VoteServer.IsBallot(click) && view.hasVoted == -click
    ensures Optimistic(Optimistic(view, click), click).hasVoted == 0
  {
  }

  /** The optimistic star state: the flag flips, the count moves by -1 if it was starred and +1 otherwise. */
  function OptimisticStar(v: StarView): (r: StarView)
    ensures r.isStarred == !v.isStarred
    ensures r.count == v.count + (if v.isStarred then -1 else 1)
    // The count of the other users' stars is what the optimistic write keeps.
    ensures r.count - Ind(r.isStarred) == v.count - Ind(v.isStarred)
  {
    StarView(!v.isStarred, if v.isStarred then v.count - 1 else v.count + 1)
  }

  /** Two optimistic star writes cancel out, and the count without the user's own star never changes. */
  lemma OptimisticStarInvolution(v: StarView)
    ensures OptimisticStar(OptimisticStar(v)) == v
    ensures OptimisticStar(v).count - Ind(OptimisticStar(v).isStarred) == v.count - Ind(v.isStarred)
  {
  }

  /**
   `handleStar` as written. On success both fields come from the reply, with
   `data.count || 0`. On failure the revert writes `!isStarred` with the
   `isStarred` captured when the handler started, which is the optimistic flag
   again, while the count is moved back.
   */
  function HandleStar(v: StarView, reply: StarReply): (r: StarView)
    ensures reply.StarOk? ==> r.isStarred == reply.starred
    ensures reply.StarOk? && reply.count.Some? ==> r.count == reply.count.value
    ensures reply.StarOk? && reply.count.None? ==> r.count == 0
    ensures reply.StarFailed? ==> r.count == v.count && r.isStarred == !v.isStarred
  {
    var optimistic := OptimisticStar(v);
    match reply
    case StarOk(starred, count) => StarView(starred, count.GetOr(0))
    case StarFailed =>
      StarView(!v.isStarred, if v.isStarred then optimistic.count + 1 else optimistic.count - 1)
  }

  /** The evidently intended `handleStar`: a failure restores both the flag and the count. */
  function HandleStarFixed(v: StarView, reply: StarReply): (r: StarView)
    ensures reply.StarOk? ==> r == HandleStar(v, reply)
    ensures reply.StarFailed? ==> r == v
  {
    match reply
    case StarOk(_, _) => HandleStar(v, reply)
    case StarFailed =>
      var optimistic := OptimisticStar(v);
      StarView(!optimistic.isStarred, if v.isStarred then optimistic.count + 1 else optimistic.count - 1)
  }

  /** `handleFork`: a successful fork adds exactly one to the count and marks the prompt forked; a failure changes nothing. */
  function HandleFork(v: ForkView, ok: bool): (r: ForkView)
    ensures ok ==> r.forkCount == v.forkCount + 1 && r.isForked
    ensures !ok ==> r == v
  {
    if ok then ForkView(v.forkCount + 1, true) else v
  }

  // ----- The client against the server's vote handler -----

  /** How the card reads a response of the vote endpoint. */
  function ReplyOf(resp: VoteServer.Response): (r: VoteReply)
    ensures resp.status == 200 && resp.body == VoteServer.Ack ==> r == VoteOk(None, None)
    ensures resp.status == 200 && resp.body.AckCounts? ==>
      r == VoteOk(Some(resp.body.upvotes), Some(resp.body.downvotes))
    ensures !(200 <= resp.status < 300) ==> r == VoteFailed
  {
    if !(200 <= resp.status < 300) then VoteFailed
    else
      match resp.body
      case Text(_) => VoteFailed // `response.json()` rejects a plain-text body
      case ErrorJson(_) => VoteOk(None, None)
      case Ack => VoteOk(None, None)
      case AckCounts(up, down) => VoteOk(Some(up), Some(down))
      case PromptJson(_) => VoteOk(None, None)
  }

  /** The vote the server holds for (`user`, `p`) as the widget encodes it: 0 when there is none. */
  function StoredVote(s: VoteServer.Store, user: int, p: int): int {
    var key := VoteServer.VoteKey(user, p);
    if key in s.votes then s.votes[key] else 0
  }

  /** One click of the card as written, answered by the server's vote handler as written. */
  function RoundTrip(s: VoteServer.Store, user: int, p: int, view: VoteView, click: int): (r: (VoteServer.Store, VoteView))
    requires VoteServer.IsBallot(click)
    // The widget always ends on the vote the click asked for, whatever the server did.
    ensures r.1.hasVoted == NewVoteValue(view.hasVoted, click)
    // A withdrawal never reaches the store.
    ensures view.hasVoted == click ==> r.0 == s
    // Any other click on an existing prompt is applied, and the counts are lost.
    ensures view.hasVoted != click && p in s.prompts ==>
      && StoredVote(r.0, user, p) == (if StoredVote(s, user, p) == click then 0 else click)
      && r.1.upvotes.None? && r.1.downvotes.None?
    // Only the caller's vote on `p` can change.
    ensures forall k :: k != VoteServer.VoteKey(user, p) ==>
      (k in r.0.votes <==> k in s.votes) && (k in s.votes ==> r.0.votes[k] == s.votes[k])
  {
    var posted := HandleVote(view, click, VoteFailed).posted;
    var o := VoteServer.Vote(s, Some(user), p, Some(posted));
    assert view.hasVoted != click && p in s.prompts ==> o.response.status == 200;
    (o.store, HandleVote(view, click, ReplyOf(o.response)).view)
  }

  /** One click of the corrected card, answered by the handler that reports the fresh counts. */
  function RoundTripFixed(s: VoteServer.Store, user: int, p: int, view: VoteView, click: int): (r: (VoteServer.Store, VoteView))
    requires VoteServer.IsBallot(click)
    // On an existing prompt the click always reaches the store: a repeat withdraws, anything else casts.
    ensures p in s.prompts ==>
      StoredVote(r.0, user, p) == (if StoredVote(s, user, p) == click then 0 else click)
    // The widget's vote follows the click and its counts are numbers again.
    ensures p in s.prompts ==>
      r.1.hasVoted == NewVoteValue(view.hasVoted, click) && r.1.upvotes.Some? && r.1.downvotes.Some?
    // A refused request leaves both the store and the widget as they were.
    ensures p !in s.prompts && VoteServer.VoteKey(user, p) !in s.votes ==> r == (s, view)
    ensures forall k :: k != VoteServer.VoteKey(user, p) ==>
      (k in r.0.votes <==> k in s.votes) && (k in s.votes ==> r.0.votes[k] == s.votes[k])
  {
    var o := VoteServer.VoteReportingCounts(s, Some(user), p, Some(click));
    assert p in s.prompts ==> o.response.status == 200;
    (o.store, HandleVoteFixed(view, click, ReplyOf(o.response)).view)
  }

  /**
   Withdrawing a vote fails as written: the card posts 0, the server answers
   400 and keeps the vote, yet the card goes on showing no vote.
   */
  lemma WithdrawalIsRejected(s: VoteServer.Store, user: int, p: int, view: VoteView, click: int)
    requires VoteServer.IsBallot(click)
    requires view.hasVoted == click && StoredVote(s, user, p) == click
    ensures VoteServer.Vote(s, Some(user), p, Some(NewVoteValue(view.hasVoted, click))).response.status == 400
    ensures var (s', view') := RoundTrip(s, user, p, view, click);
      s' == s && StoredVote(s', user, p) == click && view'.hasVoted == 0
  {
  }

  /** Casting a vote succeeds as written, but the reply `{ok: true}` carries no counts, so both counts become undefined. */
  lemma AcceptedVoteLosesCounts(s: VoteServer.Store, user: int, p: int, view: VoteView, click: int)
    requires VoteServer.IsBallot(click) && p in s.prompts
    requires view.hasVoted == StoredVote(s, user, p) && view.hasVoted != click
    ensures var (s', view') := RoundTrip(s, user, p, view, click);
      StoredVote(s', user, p) == click && view'.hasVoted == click
      && view'.upvotes.None? && view'.downvotes.None?
  {
    var key := VoteServer.VoteKey(user, p);
    var o := VoteServer.Vote(s, Some(user), p, Some(click));
    assert o.response.status == 200;
    assert o.store.votes[key] == click;
  }

  /** As written, a failed vote request leaves the optimistic widget instead of the snapshot. */
  lemma FailedVoteKeepsOptimisticView(view: VoteView, click: int)
    requires VoteServer.IsBallot(click)
    ensures HandleVote(view, click, VoteFailed).view == Optimistic(view, click)
    ensures HandleVote(view, click, VoteFailed).view != view
  {
  }

  /**
   The corrected card and the counting handler agree: when the widget's vote
   matches the stored vote before the click, after the round trip the widget
   shows the stored vote and the prompt's real promote and downvote counts.
   */
  lemma {:induction false} FixedRoundTripAgrees(s: VoteServer.Store, user: int, p: int, view: VoteView, click: int)
    requires VoteServer.IsBallot(click) && p in s.prompts
    requires view.hasVoted == StoredVote(s, user, p)
    ensures var (s', view') := RoundTripFixed(s, user, p, view, click);
      && view'.hasVoted == StoredVote(s', user, p)
      && view'.upvotes == Some(VoteServer.CountValue(VoteServer.VotesOn(s'.votes, p), 1))
      && view'.downvotes == Some(VoteServer.CountValue(VoteServer.VotesOn(s'.votes, p), -1))
  {
    var key := VoteServer.VoteKey(user, p);
    var o := VoteServer.VoteReportingCounts(s, Some(user), p, Some(click));
    var v := VoteServer.Vote(s, Some(user), p, Some(click));
    assert v.response.status == 200;
    assert o.response.status == 200;
    if key in s.votes && s.votes[key] == click {
      assert key !in o.store.votes;
    } else {
      assert o.store.votes[key] == click;
    }
  }

  /** As written, a failed star request leaves the star flag flipped although the count is restored. */
  lemma StarFailureLeavesFlagFlipped(v: StarView)
    ensures HandleStar(v, StarFailed).count == v.count
    ensures HandleStar(v, StarFailed).isStarred != v.isStarred
  {
  }
}

=== FILE: prompt_detail.dfy ===
/**
 The prompt detail page: its star and fork buttons, which update their state
 only after the server has accepted the request, and the order of the guards
 that decide what the page renders.
 */
module PromptDetail {
  import opened Schema
  import PromptCard

  /** The detail page's star button: whether the user starred the prompt and the shown count. */
  datatype StarButton = StarButton(isStarred: bool, starCount: int)

  /** A toast message: its title and description. */
  datatype Toast = Toast(title: string, description: string)

  /** A POST the server accepted, or one that failed with the given message (response text or network error). */
  datatype Reply = Accepted | Failed(message: string)

  /** What the page renders. */
  datatype Page = Spinner | NotFound | InvalidId | Detail(promptId: int)

  /**
   `StarButton.handleStar`. Only an accepted request changes the button: the
   flag flips and the count moves by -1 if it was starred and +1 otherwise.
   The toast's title is chosen from the flag captured before the click.
   */
  function HandleStar(b: StarButton, reply: Reply): (r: (StarButton, Toast))
    ensures reply.Accepted? ==> r.0.isStarred == !b.isStarred
    ensures reply.Accepted? && b.isStarred ==> r.0.starCount == b.starCount - 1
    ensures reply.Accepted? && !b.isStarred ==> r.0.starCount == b.starCount + 1
    ensures reply.Failed? ==> r.0 == b && r.1 == Toast("Error", reply.message)
    ensures reply.Accepted? ==> (r.1.title == "Unstarred" <==> b.isStarred)
  {
    match reply
    case Accepted =>
      var title := if b.isStarred then "Unstarred" else "Starred";
      var description := if b.isStarred then "Removed star from prompt" else "Added star to prompt";
      (StarButton(!b.isStarred, if b.isStarred then b.starCount - 1 else b.starCount + 1), Toast(title, description))
    case Failed(message) =>
      (b, Toast("Error", message))
  }

  /** After an accepted star the toast's title names the state the button has reached. */
  lemma StarToastMatchesNewState(b: StarButton)
    ensures var (b', toast) := HandleStar(b, Accepted);
      toast.title == (if b'.isStarred then "Starred" else "Unstarred")
  {
  }

  /** Two accepted stars return the button to where it started. */
  lemma TwoAcceptedStarsRestore(b: StarButton)
    ensures HandleStar(HandleStar(b, Accepted).0, Accepted).0 == b
  {
  }

  /** `ForkButton.handleFork`: an accepted fork adds one to the count; a failed one changes nothing. */
  function HandleFork(forkCount: int, reply: Reply): (r: (int, Toast))
    ensures reply.Accepted? ==> r.0 == forkCount + 1 && r.1.title == "Forked"
    ensures reply.Failed? ==> r.0 == forkCount && r.1 == Toast("Error", reply.message)
  {
    match reply
    case Accepted => (forkCount + 1, Toast("Forked", "Successfully forked the prompt"))
    case Failed(message) => (forkCount, Toast("Error", message))
  }

  /** The fork count after a series of fork requests answered by `replies`, in order. */
  function ForkAll(forkCount: int, replies: seq<Reply>): int
    decreases |replies|
  {
    if |replies| == 0 then forkCount
    else ForkAll(HandleFork(forkCount, replies[0]).0, replies[1..])
  }

  /** Each accepted fork adds one and each failed fork adds nothing, in whatever order they come. */
  lemma {:induction false} ForkAllCountsAccepted(forkCount: int, replies: seq<Reply>)
    ensures ForkAll(forkCount, replies) == forkCount + multiset(replies)[Accepted]
    decreases |replies|
  {
    if |replies| > 0 {
      var next := HandleFork(forkCount, replies[0]).0;
      ForkAllCountsAccepted(next, replies[1..]);
      assert replies == [replies[0]] + replies[1..];
      assert multiset(replies) == multiset{replies[0]} + multiset(replies[1..]);
    }
  }

  /** The detail page's fork button and the prompt card's fork handler agree on the count for the same answer. */
  lemma CardAndDetailForkAgree(v: PromptCard.ForkView, reply: Reply)
    ensures PromptCard.HandleFork(v, reply.Accepted?).forkCount == HandleFork(v.forkCount, reply).0
  {
  }

  /**
   What `PromptDetail` renders. `isLoading` and `prompt` come from the prompt
   query; `numericId` is `Number(id)` of the route parameter, None for `NaN`.
   */
  function Render(isLoading: bool, prompt: Option<Prompt>, numericId: Option<int>): (page: Page)
    // Loading is checked first, then the missing prompt, and only then the id.
    ensures page.Spinner? <==> isLoading
    ensures page.NotFound? <==> !isLoading && prompt.None?
    ensures page.InvalidId? <==> !isLoading && prompt.Some? && numericId.None?
    ensures page.Detail? <==> !isLoading && prompt.Some? && numericId.Some?
    ensures page.Detail? ==> page.promptId == numericId.value
  {
    if isLoading then Spinner
    else if prompt.None? then NotFound
    else if numericId.None? then InvalidId
    else Detail(numericId.value)
  }
}

=== FILE: prompts_query.dfy ===
/**
 `fetchPrompts`: the query parameters the prompt list is requested with, and
 the error raised when the server refuses. The parameters are an ordered list
 of key/value pairs, as `URLSearchParams` keeps them.
 */
module PromptsQuery {
  import opened Schema

  /** The sort orders the hook's options admit. */
  datatype SortMode = Recent | Popular | Controversial

  /** The options of `usePrompts`; every field may be left out. */
  datatype Options = Options(sort: Option<SortMode>, search: Option<string>, category: Option<string>)

  /** The result of `fetchPrompts`: the parsed prompt list or the thrown error's message. */
  datatype Fetched = Loaded(prompts: seq<Prompt>) | Failed(message: string)

  /** The name a sort order is sent under. */
  function SortName(m: SortMode): string {
    match m
    case Recent => "recent"
    case Popular => "popular"
    case Controversial => "controversial"
  }

  /** The parameters set on the query: `sort` (defaulting to 'recent'), then `search` when it is non-empty. */
  function QueryParams(o: Options): (r: seq<(string, string)>)
    ensures |r| >= 1 && r[0] == ("sort", SortName(o.sort.GetOr(Recent)))
    ensures o.sort.None? ==> r[0].1 == "recent"
    ensures (exists i :: 0 <= i < |r| && r[i].0 == "search") <==> o.search.Some? && o.search.value != ""
    ensures forall i :: 0 <= i < |r| && r[i].0 == "search" ==> r[i].1 == o.search.value
    // The category option is accepted but never sent.
    ensures forall i :: 0 <= i < |r| ==> r[i].0 != "category"
  {
    var sort := o.sort.GetOr(Recent);
    var search := o.search.GetOr("");
    var params := [("sort", SortName(sort))] + (if search != "" then [("search", search)] else []);
    assert search != "" ==> params[1].0 == "search";
    params
  }

  /** Two option sets that differ only in category request the same parameters. */
  lemma CategoryIsIgnored(o: Options, category: Option<string>)
    ensures QueryParams(o.(category := category)) == QueryParams(o)
  {
  }

  /** One call of `fetchPrompts`: the query it requests and what it yields. */
  datatype Fetch = Fetch(query: seq<(string, string)>, result: Fetched)

  /**
   `fetchPrompts`: the request carries the options' query parameters; a non-ok
   response raises "Failed to fetch prompts", an ok one whose body does not
   parse rejects with the parser's error, and a parsed body is yielded as is.
   */
  function FetchPrompts(o: Options, reply: Reply<seq<Prompt>>): (r: Fetch)
    ensures r.query == QueryParams(o)
    ensures r.result.Loaded? <==> reply.Parsed?
    ensures reply.NotOk? ==> r.result == Failed("Failed to fetch prompts")
    ensures reply.Unparsable? ==> r.result == Failed(reply.error)
    ensures reply.Parsed? ==> r.result.prompts == reply.body
  {
    var result :=
      match reply
      case NotOk => Failed("Failed to fetch prompts")
      case Unparsable(error) => Failed(error)
      case Parsed(body) => Loaded(body);
    Fetch(QueryParams(o), result)
  }

  /** The category option changes nothing about a fetch: neither the request nor the result. */
  lemma FetchIgnoresCategory(o: Options, category: Option<string>, reply: Reply<seq<Prompt>>)
    ensures FetchPrompts(o.(category := category), reply) == FetchPrompts(o, reply)
  {
    CategoryIsIgnored(o, category);
  }

  /** The options only shape the request: the client neither sorts nor filters what the server returns. */
  lemma OptionsOnlyShapeRequest(o1: Options, o2: Options, reply: Reply<seq<Prompt>>)
    ensures FetchPrompts(o1, reply).result == FetchPrompts(o2, reply).result
  {
  }
}

=== FILE: schema.dfy ===
/**
 The rows of the PromptShare relational schema that the vote, star and fork
 bookkeeping touches: users, prompts, the optional-value wrapper used for
 nullable columns and for JavaScript's `undefined`, and the outcome of reading
 an HTTP reply.
 */
module Schema {

  /** A nullable column, an optional field, or a JavaScript value that may be `undefined`. */
  datatype Option<+T> = None | Some(value: T) {

    /** The value, or `default` when absent (JavaScript's `??`). */
    function GetOr(default: T): T {
      match this
      case Some(v) => v
      case None => default
    }
  }

  /**
   A `fetch` response as a handler reads it: not ok (`!response.ok`), ok but
   with a body `response.json()` rejects with `error`, or ok with the parsed
   `body`.
   */
  datatype Reply<+T> = NotOk | Unparsable(error: string) | Parsed(body: T)

  /** A registered user (table `users`). */
  datatype User = User(
    id: int,
    username: string,
    email: string,
    name: string,
    surname: string,
    apiKey: Option<string>,
    avatar: Option<string>
  )

  /**
   A prompt (table `prompts`) as the client receives it. `likes` is the score
   the vote handler writes; `tags` is the client's array view of the column;
   `createdAt` is the creation time in milliseconds.
   */
  datatype Prompt = Prompt(
    id: int,
    userId: int,
    title: string,
    content: string,
    description: Option<string>,
    tags: Option<seq<string>>,
    upvotes: Option<int>,
    downvotes: Option<int>,
    likes: Option<int>,
    category: Option<string>,
    version: Option<string>,
    createdAt: int
  )
}

=== FILE: star_count.dfy ===
/**
 The `useStarCount` hook: a cached `{count, isStarred}` entry for one prompt,
 an optimistic toggle written into the cache before the star request, a
 rollback to the snapshot when the request fails, and the defaults the hook
 exposes while the cache is empty. The cache is `None` until the first fetch
 succeeds; the server's answer to the star request is an input.
 */
module StarCountHook {
  import opened Schema

  /** The cached star state of one prompt. */
  datatype StarState = StarState(count: int, isStarred: bool)

  /** What a star request produced in the mutation function. */
  datatype MutationResult = Resolved | Rejected(message: string)

  /**
   The cache after one `toggleStar()` call, whether the POST was sent, and
   whether the entry was invalidated for a refetch (`onSettled` always does).
   */
  datatype Toggled = Toggled(cache: Option<StarState>, requested: bool, invalidated: bool)

  /** The optimistic cache write: the flag flips and the count moves by -1 if it was starred, +1 otherwise. */
  function OptimisticToggle(prev: StarState): (r: StarState)
    ensures r.isStarred == !prev.isStarred
    ensures prev.isStarred ==> r.count == prev.count - 1
    ensures !prev.isStarred ==> r.count == prev.count + 1
  {
    StarState(prev.count + (if prev.isStarred then -1 else 1), !prev.isStarred)
  }

  /** The count of other users' stars: the count minus the user's own star. */
  function OthersCount(s: StarState): int {
    s.count - (if s.isStarred then 1 else 0)
  }

  /** Toggling twice is the identity. */
  lemma ToggleTwiceIsIdentity(s: StarState)
    ensures OptimisticToggle(OptimisticToggle(s)) == s
  {
  }

  /** The toggle never changes how many other users starred the prompt. */
  lemma ToggleKeepsOthersCount(s: StarState)
    ensures OthersCount(OptimisticToggle(s)) == OthersCount(s)
  {
  }

  /**
   The mutation function: a non-ok response is turned into a thrown error, and
   an ok one resolves with its parsed body, so a body that does not parse
   rejects with the parser's error. The body's content is never read.
   */
  function MutationFn(reply: Reply<()>): (r: MutationResult)
    ensures r.Resolved? <==> reply.Parsed?
    ensures reply.NotOk? ==> r == Rejected("Failed to update star")
    ensures reply.Unparsable? ==> r == Rejected(reply.error)
  {
    match reply
    case NotOk => Rejected("Failed to update star")
    case Unparsable(error) => Rejected(error)
    case Parsed(_) => Resolved
  }

  /**
   One call of `toggleStar()`. `onMutate` snapshots the cache and writes the
   optimistic state; on an empty cache the updater reads a field of
   `undefined` and throws, so the request is never sent and `onError`'s write
   of the (undefined) snapshot leaves the cache empty. After the request,
   `onError` writes the snapshot back, and `onSettled` invalidates the entry
   either way; the refetch that follows is not part of this model.
   */
  function ToggleStar(cache: Option<StarState>, reply: Reply<()>): (r: Toggled)
    ensures r.invalidated
    ensures r.requested <==> cache.Some?
    ensures cache.None? ==> r.cache.None?
    // A successful request leaves the optimistic state in place until the refetch.
    ensures cache.Some? && reply.Parsed? ==> r.cache == Some(OptimisticToggle(cache.value))
    // A failed request restores exactly the snapshot taken before the optimistic write.
    ensures cache.Some? && !reply.Parsed? ==> r.cache == cache
  {
    match cache
    case None => Toggled(None, false, true)
    case Some(prev) =>
      var snapshot := cache;
      var optimistic := Some(OptimisticToggle(prev));
      match MutationFn(reply)
      case Resolved => Toggled(optimistic, true, true)
      case Rejected(_) => Toggled(snapshot, true, true)
  }

  /** The star count the hook exposes: the cached count, 0 while nothing is cached. */
  function StarCount(cache: Option<StarState>): (n: int)
    ensures cache.None? ==> n == 0
    ensures cache.Some? ==> n == cache.value.count
  {
    match cache
    case None => 0
    case Some(s) => s.count
  }

  /** The starred flag the hook exposes: the cached flag, false while nothing is cached. */
  function IsStarred(cache: Option<StarState>): (b: bool)
    ensures cache.None? ==> !b
    ensures cache.Some? ==> b == cache.value.isStarred
  {
    match cache
    case None => false
    case Some(s) => s.isStarred
  }

  /** Whatever the server answers, the other users' star count the hook shows is the same before and after a toggle. */
  lemma ToggleStarKeepsOthersCount(cache: Option<StarState>, reply: Reply<()>)
    requires cache.Some?
    ensures var after := ToggleStar(cache, reply).cache;
      after.Some? && OthersCount(after.value) == OthersCount(cache.value)
  {
  }

  /** Two successful toggles put the exposed count and flag back where they were. */
  lemma {:induction false} TwoSuccessfulTogglesRestore(cache: Option<StarState>)
    ensures var once := ToggleStar(cache, Parsed(())).cache;
      var twice := ToggleStar(once, Parsed(())).cache;
      StarCount(twice) == StarCount(cache) && IsStarred(twice) == IsStarred(cache)
  {
    if cache.Some? {
      ToggleTwiceIsIdentity(cache.value);
    }
  }
}

=== FILE: text.dfy ===
/**
 The string operations the client's filters and key masking rely on:
 ASCII `toLowerCase`, `String.prototype.includes` and the one-argument
 `String.prototype.slice`.
 */
module Text {

  /** ASCII lower-casing of one character; every other character is left as is. */
  function LowerChar(c: char): char {
    if 'A' <= c <= 'Z' then (c as int + 32) as char else c
  }

  /** `s.toLowerCase()` restricted to ASCII letters. */
  function Lower(s: string): (r: string)
    ensures |r| == |s|
    ensures forall i :: 0 <= i < |s| ==> r[i] == LowerChar(s[i])
  {
    if |s| == 0 then "" else [LowerChar(s[0])] + Lower(s[1..])
  }

  /** `s.startsWith(prefix)`. */
  predicate StartsWith(s: string, prefix: string) {
    |prefix| <= |s| && s[..|prefix|] == prefix
  }

  /** `hay.includes(needle)`: scan the start positions of `hay` from left to right. */
  predicate Contains(hay: string, needle: string)
    // A match needs room for the needle, and the empty needle matches every string.
    ensures Contains(hay, needle) ==> |needle| <= |hay|
    ensures |needle| == 0 ==> Contains(hay, needle)
    decreases |hay|
  {
    if StartsWith(hay, needle) then true
    else if |hay| == 0 then false
    else Contains(hay[1..], needle)
  }

  /** `needle` occurs in `hay` starting at position `i`. */
  ghost predicate OccursAt(hay: string, needle: string, i: int) {
    0 <= i && i + |needle| <= |hay| && hay[i..i + |needle|] == needle
  }

  /** The scan finds a match exactly when the needle occurs somewhere in the haystack. */
  lemma {:induction false} ContainsIffOccurs(hay: string, needle: string)
    ensures Contains(hay, needle) <==> exists i :: OccursAt(hay, needle, i)
    decreases |hay|
  {
    if StartsWith(hay, needle) {
      assert OccursAt(hay, needle, 0);
    } else if |hay| == 0 {
    } else {
      ContainsIffOccurs(hay[1..], needle);
      if Contains(hay[1..], needle) {
        var j :| OccursAt(hay[1..], needle, j);
        assert hay[j + 1..j + 1 + |needle|] == hay[1..][j..j + |needle|];
        assert OccursAt(hay, needle, j + 1);
      }
      if exists i :: OccursAt(hay, needle, i) {
        var i :| OccursAt(hay, needle, i);
        assert i != 0;
        assert hay[1..][i - 1..i - 1 + |needle|] == hay[i..i + |needle|];
        assert OccursAt(hay[1..], needle, i - 1);
      }
    }
  }

  /** `hay.toLowerCase().includes(needle.toLowerCase())`. */
  predicate ContainsIgnoreCase(hay: string, needle: string) {
    Contains(Lower(hay), Lower(needle))
  }

  /** `s.slice(start)` for an integer `start`: a negative start counts from the end and is clamped at 0. */
  function Slice(s: string, start: int): (r: string)
    ensures start < 0 && -start <= |s| ==> r == s[|s| + start..]
    ensures start < 0 && -start > |s| ==> r == s
    ensures 0 <= start <= |s| ==> r == s[start..]
    ensures start > |s| ==> r == ""
  {
    var from := if start < 0 then (if |s| + start < 0 then 0 else |s| + start)
                else (if start > |s| then |s| else start);
    s[from..]
  }

  /** The number a string of decimal digits denotes, read from left to right. */
  ghost function DigitsValue(s: string): int
    decreases |s|
  {
    if |s| == 0 then 0 else DigitsValue(s[..|s| - 1]) * 10 + (s[|s| - 1] as int - '0' as int)
  }

  /** The decimal digits of `n`, as a template literal renders a non-negative integer. */
  function NatToString(n: nat): (r: string)
    ensures |r| > 0
    ensures forall i :: 0 <= i < |r| ==> '0' <= r[i] <= '9'
    ensures DigitsValue(r) == n
    // No leading zero, except for 0 itself.
    ensures r[0] == '0' ==> n == 0 && r == "0"
    decreases n
  {
    var digit := ['0' + (n % 10) as char];
    if n < 10 then digit
    else
      var front := NatToString(n / 10);
      assert (front + digit)[..|front + digit| - 1] == front;
      front + digit
  }
}

=== FILE: user_profile.dfy ===
/**
 The user profile card: the masked API key, the choice between the full and
 the masked key, and the list of the signed-in user's own prompts.
 */
module UserProfile {
  import opened Schema
  import opened Text
  import opened Listings

  /** The fixed beginning of every masked key. */
  const MaskPrefix: string := "sk-..."

  /** `maskApiKey(key)`: the prefix followed by `key.slice(-4)`. */
  function MaskApiKey(key: string): (r: string)
    ensures |r| == |MaskPrefix| + (if |key| < 4 then |key| else 4)
    ensures r[..|MaskPrefix|] == MaskPrefix
    // What follows the prefix is the key's last four characters, or the whole key when it is shorter.
    ensures |key| >= 4 ==> r[|MaskPrefix|..] == key[|key| - 4..]
    ensures |key| <= 4 ==> r[|MaskPrefix|..] == key
  {
    MaskPrefix + Slice(key, -4)
  }

  /**
   The key shown on the card, when it is shown at all (`user?.apiKey && …`):
   the full key if `showApiKey`, the mask otherwise. An empty key is falsy and
   shows nothing.
   */
  function ShownApiKey(user: Option<User>, showApiKey: bool): (r: Option<string>)
    ensures r.Some? <==> user.Some? && user.value.apiKey.Some? && user.value.apiKey.value != ""
    ensures r.Some? && showApiKey ==> r.value == user.value.apiKey.value
    ensures r.Some? && !showApiKey ==> r.value == MaskApiKey(user.value.apiKey.value)
  {
    if user.Some? && user.value.apiKey.Some? && user.value.apiKey.value != "" then
      var key := user.value.apiKey.value;
      Some(if showApiKey then key else MaskApiKey(key))
    else None
  }

  /** The masked key never shows more than four characters of the key, all of them from its end. */
  lemma MaskRevealsAtMostFour(key: string)
    ensures var shown := MaskApiKey(key)[|MaskPrefix|..];
      |shown| <= 4 && shown == key[|key| - |shown|..]
  {
  }

  /** `userPrompts`: the prompts whose `userId` is the signed-in user's id, in order; `[]` otherwise. */
  function UserPrompts(prompts: Option<seq<Prompt>>, user: Option<User>): (r: seq<Prompt>)
    ensures prompts.None? || user.None? ==> r == []
    ensures prompts.Some? ==> IsSubsequence(r, prompts.value)
    ensures prompts.Some? && user.Some? ==>
      forall p :: p in prompts.value ==> (p in r <==> p.userId == user.value.id)
    ensures prompts.Some? && user.Some? ==>
      forall p :: multiset(r)[p] == if p.userId == user.value.id then multiset(prompts.value)[p] else 0
  {
    if prompts.None? || user.None? then []
    else Filter(prompts.value, (p: Prompt) => p.userId == user.value.id)
  }
}

=== FILE: user_profile_backup.dfy ===
/**
 The older, route-driven user profile page: loading the profile named by the
 route's id, whose prompts to list, whether the profile is the signed-in
 user's own, the API-key save guard, and the validation rules of the profile
 and password forms.
 */
module UserProfileBackup {
  import opened Schema
  import opened Text
  import opened Listings
  import UserProfile

  /**
   The answer of `GET /api/users/:id`: its status, its text, its
   `content-type` header, and the user it carries when the JSON body is an
   object with a numeric `id` (None otherwise).
   */
  datatype ProfileResponse = ProfileResponse(status: nat, text: string, contentType: Option<string>, user: Option<User>)

  /** The result of loading a profile: the profile set, the id requested (if a request was made) and the error shown. */
  datatype ProfileLoad = ProfileLoad(profile: Option<User>, requested: Option<int>, error: Option<string>)

  /** What the page shows before the forms: a loading message, or the user it displays. */
  datatype Page = Loading | Showing(user: User)

  /** A validation issue: the form field it is attached to and its message. */
  datatype Issue = Issue(path: string, message: string)

  /** The outcome of pressing "Save" in the API-key dialog: the key posted, if any, and whether the dialog stays open. */
  datatype SaveResult = SaveResult(posted: Option<string>, editing: bool)

  /** `response.ok`: a 2xx status. */
  predicate IsOk(status: nat) {
    200 <= status < 300
  }

  /** The `content-type` header is present and names JSON. */
  predicate IsJson(contentType: Option<string>) {
    contentType.Some? && Contains(contentType.value, "application/json")
  }

  /**
   `fetchUserProfile`. `parsedId` is `parseInt(id || '', 10)`, None for `NaN`;
   `response` is the server's answer, used only when a request is made.
   */
  function FetchUserProfile(parsedId: Option<int>, response: ProfileResponse): (r: ProfileLoad)
    // A non-numeric id fails before any request, and the profile becomes null.
    ensures parsedId.None? ==> r == ProfileLoad(None, None, Some("Invalid user ID"))
    ensures parsedId.Some? ==> r.requested == parsedId
    ensures r.profile.Some? <==>
      parsedId.Some? && IsOk(response.status) && IsJson(response.contentType) && response.user.Some?
    ensures r.profile.Some? ==> r.profile == response.user && r.error.None?
    ensures r.profile.None? ==> r.error.Some? && r.error.value != ""
    ensures parsedId.Some? && response.status == 404 ==> r.error == Some("User not found")
  {
    if parsedId.None? then ProfileLoad(None, None, Some("Invalid user ID"))
    else
      var fail := (message: string) => ProfileLoad(None, parsedId, Some(message));
      if response.status == 404 then fail("User not found")
      else if !IsOk(response.status) then
        fail(if response.text != "" then response.text
             else "Failed to fetch user profile (" + NatToString(response.status) + ")")
      else if !IsJson(response.contentType) then fail("Invalid response format")
      else if response.user.None? then fail("Invalid user data received")
      else ProfileLoad(response.user, parsedId, None)
  }

  /**
   The profile after the route or the signed-in user changes: a route id
   (a non-empty string) loads that profile; without one the signed-in user is
   shown; with neither the profile is left as it was.
   */
  function ProfileAfterEffect(routeId: string, parsedId: Option<int>, response: ProfileResponse,
                              currentUser: Option<User>, profile: Option<User>): (r: Option<User>)
    ensures routeId != "" ==> r == FetchUserProfile(parsedId, response).profile
    ensures routeId != "" && parsedId.None? ==> r.None?
    ensures routeId == "" && currentUser.Some? ==> r == currentUser
    ensures routeId == "" && currentUser.None? ==> r == profile
  {
    if routeId != "" then FetchUserProfile(parsedId, response).profile
    else if currentUser.Some? then currentUser
    else profile
  }

  /** `user?.id`. */
  function IdOf(user: Option<User>): Option<int> {
    match user
    case Some(u) => Some(u.id)
    case None => None
  }

  /** `profileUser?.id ?? currentUser?.id`: whose prompts the page lists. */
  function ListedOwner(profileUser: Option<User>, currentUser: Option<User>): (r: Option<int>)
    ensures profileUser.Some? ==> r == Some(profileUser.value.id)
    ensures profileUser.None? ==> r == IdOf(currentUser)
  {
    if profileUser.Some? then IdOf(profileUser) else IdOf(currentUser)
  }

  /** `userPrompts`: the prompts of the profile's user, falling back to the signed-in user; `[]` without either. */
  function UserPrompts(prompts: Option<seq<Prompt>>, profileUser: Option<User>, currentUser: Option<User>): (r: seq<Prompt>)
    ensures prompts.None? || (profileUser.None? && currentUser.None?) ==> r == []
    ensures prompts.Some? ==> IsSubsequence(r, prompts.value)
    ensures prompts.Some? && profileUser.Some? ==>
      forall p :: p in prompts.value ==> (p in r <==> p.userId == profileUser.value.id)
    ensures prompts.Some? && profileUser.None? && currentUser.Some? ==>
      forall p :: p in prompts.value ==> (p in r <==> p.userId == currentUser.value.id)
    ensures prompts.Some? && ListedOwner(profileUser, currentUser).Some? ==>
      forall p :: multiset(r)[p] ==
        if Some(p.userId) == ListedOwner(profileUser, currentUser) then multiset(prompts.value)[p] else 0
  {
    var owner := ListedOwner(profileUser, currentUser);
    if prompts.None? || owner.None? then []
    else Filter(prompts.value, (p: Prompt) => p.userId == owner.value)
  }

  /** When the profile is the signed-in user's, both versions of the page list the same prompts. */
  lemma OwnProfileListsSamePrompts(prompts: Option<seq<Prompt>>, user: User)
    ensures UserPrompts(prompts, Some(user), Some(user)) == UserProfile.UserPrompts(prompts, Some(user))
  {
  }

  /** `isOwnProfile`: `profileUser?.id === currentUser?.id`, which also holds when both are absent. */
  predicate IsOwnProfile(profileUser: Option<User>, currentUser: Option<User>)
    ensures IsOwnProfile(profileUser, currentUser) <==>
      (profileUser.None? && currentUser.None?)
      || (profileUser.Some? && currentUser.Some? && profileUser.value.id == currentUser.value.id)
  {
    IdOf(profileUser) == IdOf(currentUser)
  }

  /**
   `handleSaveApiKey`: nothing happens unless the profile is the signed-in
   user's own; otherwise the key is posted and the dialog closes only when
   the server accepts it.
   */
  function SaveApiKey(profileUser: Option<User>, currentUser: Option<User>, apiKey: string,
                      accepted: bool, editing: bool): (r: SaveResult)
    ensures r.posted.Some? <==> IsOwnProfile(profileUser, currentUser)
    ensures !IsOwnProfile(profileUser, currentUser) ==> r == SaveResult(None, editing)
    ensures r.posted.Some? ==> r.posted.value == apiKey
    ensures r.posted.Some? && accepted ==> !r.editing
    ensures !accepted ==> r.editing == editing
  {
    if !IsOwnProfile(profileUser, currentUser) then SaveResult(None, editing)
    else SaveResult(Some(apiKey), if accepted then false else editing)
  }

  /** Another user's profile never posts a key: the ids differ, so the guard stops the save. */
  lemma OthersProfileNeverSaves(profile: User, current: User, apiKey: string, accepted: bool, editing: bool)
    requires profile.id != current.id
    ensures SaveApiKey(Some(profile), Some(current), apiKey, accepted, editing) == SaveResult(None, editing)
  {
  }

  /** Without a loaded profile and without a signed-in user the guard reads `undefined === undefined`, so it lets the save through. */
  lemma NoUsersPassesGuard(apiKey: string)
    ensures SaveApiKey(None, None, apiKey, true, true).posted == Some(apiKey)
  {
  }

  /** The page: "Loading..." while neither user is known, otherwise `profileUser || currentUser`. */
  function Render(profileUser: Option<User>, currentUser: Option<User>): (page: Page)
    ensures page.Loading? <==> profileUser.None? && currentUser.None?
    ensures profileUser.Some? ==> page == Showing(profileUser.value)
    ensures profileUser.None? && currentUser.Some? ==> page == Showing(currentUser.value)
  {
    if profileUser.Some? then Showing(profileUser.value)
    else if currentUser.Some? then Showing(currentUser.value)
    else Loading
  }

  /**
   The API key shown on the page. The key sits in the API tab, which is
   rendered only on one's own profile; there it is the displayed user's key,
   full if `showApiKey` and masked otherwise, as on the profile card.
   */
  function ShownApiKey(profileUser: Option<User>, currentUser: Option<User>, showApiKey: bool): (r: Option<string>)
    ensures !IsOwnProfile(profileUser, currentUser) ==> r.None?
    ensures Render(profileUser, currentUser).Loading? ==> r.None?
    ensures IsOwnProfile(profileUser, currentUser) && Render(profileUser, currentUser).Showing? ==>
      r == UserProfile.ShownApiKey(Some(Render(profileUser, currentUser).user), showApiKey)
  {
    if !IsOwnProfile(profileUser, currentUser) then None
    else
      match Render(profileUser, currentUser)
      case Loading => None
      case Showing(u) => UserProfile.ShownApiKey(Some(u), showApiKey)
  }

  /**
   Without a route id, once the signed-in user is known the effect makes the
   page their own profile: it shows them, and their key as the profile card
   would.
   */
  lemma ProfileWithoutRouteIdIsOwn(parsedId: Option<int>, response: ProfileResponse, me: User,
                                   profile: Option<User>, showApiKey: bool)
    ensures var shown := ProfileAfterEffect("", parsedId, response, Some(me), profile);
      && IsOwnProfile(shown, Some(me))
      && Render(shown, Some(me)) == Showing(me)
      && ShownApiKey(shown, Some(me), showApiKey) == UserProfile.ShownApiKey(Some(me), showApiKey)
  {
  }

  /** Another user's profile never shows a key, whatever that user's record holds. */
  lemma OthersProfileHidesKey(profile: User, current: User, showApiKey: bool)
    requires profile.id != current.id
    ensures ShownApiKey(Some(profile), Some(current), showApiKey) == None
  {
  }

  /**
   While a route profile is still loading the page shows the signed-in user,
   but `isOwnProfile` compares an absent id with a present one, so no key is
   shown.
   */
  lemma LoadingProfileHidesKey(current: User, showApiKey: bool)
    ensures Render(None, Some(current)) == Showing(current)
    ensures ShownApiKey(None, Some(current), showApiKey) == None
  {
  }

  /** Zod's message for a string shorter than `min`. */
  function TooShort(min: nat): string {
    "String must contain at least " + NatToString(min) + " character(s)"
  }

  /**
   The profile schema's issues, in field order: an invalid email (`emailValid`
   is the outcome of the library's email check), then a name or a surname
   shorter than 2.
   */
  function ProfileIssues(email: string, name: string, surname: string, emailValid: bool): (r: seq<Issue>)
    ensures |r| == 0 <==> emailValid && |name| >= 2 && |surname| >= 2
    ensures |r| == (if emailValid then 0 else 1) + (if |name| < 2 then 1 else 0) + (if |surname| < 2 then 1 else 0)
    ensures Issue("email", "Invalid email") in r <==> !emailValid
    // Field order: the email issue comes first, the surname issue last, the name issue between.
    ensures !emailValid ==> r[0] == Issue("email", "Invalid email")
    ensures |name| < 2 ==> r[if emailValid then 0 else 1] == Issue("name", TooShort(2))
    ensures |surname| < 2 ==> r[|r| - 1] == Issue("surname", TooShort(2))
    ensures Issue("name", TooShort(2)) in r <==> |name| < 2
    ensures Issue("surname", TooShort(2)) in r <==> |surname| < 2
  {
    (if emailValid then [] else [Issue("email", "Invalid email")])
    + (if |name| >= 2 then [] else [Issue("name", TooShort(2))])
    + (if |surname| >= 2 then [] else [Issue("surname", TooShort(2))])
  }

  /**
   The security schema's issues: a current or new password shorter than 6,
   then, as a refinement that runs even after those, a confirmation that
   differs from the new password, attached to `confirmPassword`.
   */
  function SecurityIssues(currentPassword: string, newPassword: string, confirmPassword: string): (r: seq<Issue>)
    ensures |r| == 0 <==> |currentPassword| >= 6 && |newPassword| >= 6 && confirmPassword == newPassword
    ensures Issue("confirmPassword", "Passwords don't match") in r <==> confirmPassword != newPassword
    ensures forall i :: 0 <= i < |r| ==> r[i].path == "confirmPassword" ==> r[i].message == "Passwords don't match"
    ensures Issue("currentPassword", TooShort(6)) in r <==> |currentPassword| < 6
    ensures Issue("newPassword", TooShort(6)) in r <==> |newPassword| < 6
  {
    (if |currentPassword| >= 6 then [] else [Issue("currentPassword", TooShort(6))])
    + (if |newPassword| >= 6 then [] else [Issue("newPassword", TooShort(6))])
    + (if newPassword == confirmPassword then [] else [Issue("confirmPassword", "Passwords don't match")])
  }
}

=== FILE: vote_server.dfy ===
/**
 The server side of voting and prompt creation: the handlers
 `POST /api/prompts/:id/vote` and `POST /api/prompts`, as pure transitions over
 an immutable store. The vote relation is a map from (voter, prompt) to the
 stored value, so "one vote per user per prompt" holds by construction; the
 handler's select-then-insert/delete/update logic is what keeps the stored
 values and the prompt's score honest.
 */
module VoteServer {
  import opened Schema

  /** The key of a vote row: the voter and the prompt voted on. */
  datatype VoteKey = VoteKey(userId: int, promptId: int)

  /** The rows the handlers read and write: prompts by id, and the vote relation. */
  datatype Store = Store(prompts: map<int, Prompt>, votes: map<VoteKey, int>)

  /** A response body: plain text, an `{error}` object, `{ok: true}`, `{ok, upvotes, downvotes}` or a prompt. */
  datatype Body =
    | Text(message: string)
    | ErrorJson(error: string)
    | Ack
    | AckCounts(upvotes: int, downvotes: int)
    | PromptJson(prompt: Prompt)

  datatype Response = Response(status: int, body: Body)

  /** What one request produces: the response and the store afterwards. */
  datatype Outcome = Outcome(response: Response, store: Store)

  /**
   The fields a create-prompt request body may carry: the columns of a prompt,
   including a `userId` the handler overrides and the counters the database
   would otherwise default.
   */
  datatype PromptBody = PromptBody(
    userId: Option<int>,
    title: Option<string>,
    content: Option<string>,
    description: Option<string>,
    tags: Option<seq<string>>,
    upvotes: Option<int>,
    downvotes: Option<int>,
    likes: Option<int>,
    category: Option<string>,
    version: Option<string>
  )

  /** The two values the vote handler accepts: 1 (promote) and -1 (downvote). */
  predicate IsBallot(v: int) {
    v == 1 || v == -1
  }

  /** Every stored vote is a ballot. */
  ghost predicate AllBallots(votes: map<VoteKey, int>) {
    forall k :: k in votes ==> IsBallot(votes[k])
  }

  /** The store invariant: stored values are ballots and every vote references an existing prompt. */
  ghost predicate Valid(s: Store) {
    && AllBallots(s.votes)
    && forall k :: k in s.votes ==> k.promptId in s.prompts
  }

  /** The votes cast on prompt `p`. */
  function VotesOn(votes: map<VoteKey, int>, p: int): (m: map<VoteKey, int>)
    ensures forall k :: k in m <==> k in votes && k.promptId == p
    ensures forall k :: k in m ==> m[k] == votes[k]
  {
    map k | k in votes && k.promptId == p :: votes[k]
  }

  /** The number of votes in `m` whose value is `v`. */
  function CountValue(m: map<VoteKey, int>, v: int): nat {
    |set k | k in m && m[k] == v|
  }

  /** Some key of a non-empty map; fixed per map, so `Sum` below is a function. */
  ghost function Pick(m: map<VoteKey, int>): (k: VoteKey)
    requires |m| > 0
    ensures k in m
  {
    assert m.Keys != {};
    var k :| k in m; k
  }

  /** The reference meaning of SQL `sum(value)`: the sum of the values of `m`, 0 when empty. */
  ghost function Sum(m: map<VoteKey, int>): int
    decreases |m|
  {
    if |m| == 0 then 0
    else
      var k := Pick(m);
      assert (m - {k}).Keys == m.Keys - {k};
      m[k] + Sum(m - {k})
  }

  /** Any key may be taken out of the sum first. */
  lemma {:induction false} SumRemove(m: map<VoteKey, int>, k: VoteKey)
    requires k in m
    ensures Sum(m) == m[k] + Sum(m - {k})
    decreases |m|
  {
    var j := Pick(m);
    if j != k {
      assert (m - {j}).Keys == m.Keys - {j};
      assert (m - {k}).Keys == m.Keys - {k};
      SumRemove(m - {j}, k);
      SumRemove(m - {k}, j);
      assert m - {j} - {k} == m - {k} - {j};
    }
  }

  /** Taking one key out of `m` lowers the count of its value by one and leaves the other counts alone. */
  lemma CountRemove(m: map<VoteKey, int>, k: VoteKey, v: int)
    requires k in m
    ensures CountValue(m, v) == CountValue(m - {k}, v) + (if m[k] == v then 1 else 0)
  {
    var all := set k' | k' in m && m[k'] == v;
    var rest := set k' | k' in m - {k} && (m - {k})[k'] == v;
    if m[k] == v {
      assert all == rest + {k};
    } else {
      assert all == rest;
    }
  }

  /** When every value is a ballot, the sum is the number of promotes minus the number of downvotes. */
  lemma {:induction false} SumIsTally(m: map<VoteKey, int>)
    ensures AllBallots(m) ==> Sum(m) == CountValue(m, 1) - CountValue(m, -1)
    decreases |m|
  {
    if AllBallots(m) && |m| > 0 {
      var k := Pick(m);
      assert (m - {k}).Keys == m.Keys - {k};
      SumIsTally(m - {k});
      CountRemove(m, k, 1);
      CountRemove(m, k, -1);
    } else if |m| == 0 {
      assert m.Keys == {};
    }
  }

  /**
   The score the handler writes for prompt `p`: the number of promotes minus
   the number of downvotes. Under `Valid` every stored value is 1 or -1, so
   this is the sum of the prompt's vote values; on other values the two differ.
   */
  function Score(votes: map<VoteKey, int>, p: int): (r: int)
    ensures AllBallots(votes) ==> r == Sum(VotesOn(votes, p))
  {
    var on := VotesOn(votes, p);
    SumIsTally(on);
    CountValue(on, 1) - CountValue(on, -1)
  }

  /** The vote relation after the caller's ballot `v` on `key`: delete on a repeat, update on a change, insert otherwise. */
  function Cast(votes: map<VoteKey, int>, key: VoteKey, v: int): map<VoteKey, int> {
    if key in votes then
      if votes[key] == v then votes - {key} else votes[key := v]
    else
      votes[key := v]
  }

  /**
   `POST /api/prompts/:id/vote`. `caller` is the session's user id, `promptId`
   the route parameter and `value` the parsed body value (None when it is not
   a number). The prompt's `likes` field is the score the handler writes.
   */
  function Vote(s: Store, caller: Option<int>, promptId: int, value: Option<int>): (r: Outcome)
    // Unauthenticated requests are refused before anything is read.
    ensures caller.None? ==> r.response.status == 401 && r.store == s
    // Any value but 1 or -1 is refused, 0 included.
    ensures caller.Some? && !(value.Some? && IsBallot(value.value)) ==> r.response.status == 400 && r.store == s
    // Only a failed request leaves the store as it was; a refused insert is a 500.
    ensures r.response.status != 200 ==> r.store == s
    ensures r.response.status == 200 <==>
      caller.Some? && value.Some? && IsBallot(value.value)
      && (VoteKey(caller.value, promptId) in s.votes || promptId in s.prompts)
    ensures r.response.status == 200 ==> r.response.body == Ack
    // With no earlier vote, exactly one vote with the given value is added.
    ensures r.response.status == 200 && VoteKey(caller.value, promptId) !in s.votes ==>
      r.store.votes == s.votes[VoteKey(caller.value, promptId) := value.value]
      && |r.store.votes| == |s.votes| + 1
    // Repeating the stored value withdraws the vote.
    ensures r.response.status == 200 && VoteKey(caller.value, promptId) in s.votes
            && s.votes[VoteKey(caller.value, promptId)] == value.value ==>
      r.store.votes == s.votes - {VoteKey(caller.value, promptId)}
      && |r.store.votes| == |s.votes| - 1
    // A different value replaces the stored one in place.
    ensures r.response.status == 200 && VoteKey(caller.value, promptId) in s.votes
            && s.votes[VoteKey(caller.value, promptId)] != value.value ==>
      r.store.votes == s.votes[VoteKey(caller.value, promptId) := value.value]
      && |r.store.votes| == |s.votes|
    // Other users' and other prompts' votes are untouched.
    ensures caller.Some? ==> forall k :: k != VoteKey(caller.value, promptId) ==>
      (k in r.store.votes <==> k in s.votes) && (k in s.votes ==> r.store.votes[k] == s.votes[k])
    ensures Valid(s) ==> Valid(r.store)
    // After a successful vote the prompt's score is the sum of its vote values; nothing else in the prompt changes.
    ensures Valid(s) && r.response.status == 200 ==>
      promptId in r.store.prompts
      && r.store.prompts[promptId] == s.prompts[promptId].(likes := r.store.prompts[promptId].likes)
      && r.store.prompts[promptId].likes == Some(Sum(VotesOn(r.store.votes, promptId)))
    // Other prompts are unchanged.
    ensures r.store.prompts.Keys == s.prompts.Keys
    ensures forall q :: q in s.prompts && q != promptId ==> r.store.prompts[q] == s.prompts[q]
  {
    if caller.None? then
      Outcome(Response(401, Text("Not authenticated")), s)
    else if value != Some(1) && value != Some(-1) then
      Outcome(Response(400, Text("Invalid vote value")), s)
    else
      var key := VoteKey(caller.value, promptId);
      if key !in s.votes && promptId !in s.prompts then
        // The insert violates the foreign key on votes.prompt_id; the catch answers 500.
        Outcome(Response(500, ErrorJson("Failed to update vote")), s)
      else
        var votes' := Cast(s.votes, key, value.value);
        var prompts' :=
          if promptId in s.prompts then
            s.prompts[promptId := s.prompts[promptId].(likes := Some(Score(votes', promptId)))]
          else s.prompts;
        Outcome(Response(200, Ack), Store(prompts', votes'))
  }

  /** The intended reply of the vote endpoint: the same transition, answering `{ok, upvotes, downvotes}`. */
  function VoteReportingCounts(s: Store, caller: Option<int>, promptId: int, value: Option<int>): (r: Outcome)
    ensures r.store == Vote(s, caller, promptId, value).store
    ensures r.response.status == Vote(s, caller, promptId, value).response.status
    ensures r.response.status == 200 ==>
      r.response.body.AckCounts?
      && r.response.body.upvotes == CountValue(VotesOn(r.store.votes, promptId), 1)
      && r.response.body.downvotes == CountValue(VotesOn(r.store.votes, promptId), -1)
  {
    var o := Vote(s, caller, promptId, value);
    if o.response.status == 200 then
      var on := VotesOn(o.store.votes, promptId);
      Outcome(Response(200, AckCounts(CountValue(on, 1), CountValue(on, -1))), o.store)
    else o
  }

  /**
   `POST /api/prompts`. The body's fields are spread into the new row and then
   `userId` is overwritten with the caller's id; columns the body leaves out
   take their defaults. `freshId` is the id the identity column generates and
   `now` the database clock.
   */
  function CreatePrompt(s: Store, caller: Option<int>, body: PromptBody, freshId: int, now: int): (r: Outcome)
    requires freshId !in s.prompts
    ensures caller.None? ==> r.response.status == 401 && r.store == s
    ensures r.response.status != 200 ==> r.store == s
    ensures r.response.status == 200 <==> caller.Some? && body.title.Some? && body.content.Some?
    ensures r.response.status == 200 ==>
      r.response.body.PromptJson? && r.store.prompts == s.prompts[freshId := r.response.body.prompt]
    // Whatever `userId` the body carries, the created prompt belongs to the caller.
    ensures r.response.status == 200 ==>
      var p := r.response.body.prompt;
      p.id == freshId && p.userId == caller.value
    // Every other column is the body's value when it carries one.
    ensures r.response.status == 200 ==>
      var p := r.response.body.prompt;
      && p.title == body.title.value && p.content == body.content.value
      && p.description == body.description && p.tags == body.tags && p.category == body.category
      && (body.version.Some? ==> p.version == body.version)
      && (body.upvotes.Some? ==> p.upvotes == body.upvotes)
      && (body.downvotes.Some? ==> p.downvotes == body.downvotes)
      && p.likes == body.likes
    // Otherwise the column defaults apply: version "1.0.0" and zero counters; the creation time is the database clock.
    ensures r.response.status == 200 ==>
      var p := r.response.body.prompt;
      && (body.version.None? ==> p.version == Some("1.0.0"))
      && (body.upvotes.None? ==> p.upvotes == Some(0))
      && (body.downvotes.None? ==> p.downvotes == Some(0))
      && p.createdAt == now
    ensures r.store.votes == s.votes
  {
    if caller.None? then
      Outcome(Response(401, Text("Not authenticated")), s)
    else if body.title.None? || body.content.None? then
      // A NOT NULL column without a value makes the insert fail.
      Outcome(Response(500, ErrorJson("Failed to create prompt")), s)
    else
      var prompt := Prompt(
        freshId, caller.value, body.title.value, body.content.value, body.description,
        body.tags, Some(body.upvotes.GetOr(0)), Some(body.downvotes.GetOr(0)), body.likes,
        body.category, Some(body.version.GetOr("1.0.0")), now);
      Outcome(Response(200, PromptJson(prompt)), s.(prompts := s.prompts[freshId := prompt]))
  }

  /** The body's `userId` never matters: the handler overwrites it. */
  lemma CreateIgnoresBodyOwner(s: Store, caller: Option<int>, body: PromptBody, owner: Option<int>, freshId: int, now: int)
    requires freshId !in s.prompts
    ensures CreatePrompt(s, caller, body.(userId := owner), freshId, now) == CreatePrompt(s, caller, body, freshId, now)
  {
  }

  /**
   The evidently intended `POST /api/prompts`: the counters a body carries are
   dropped, so a new prompt starts with no votes counted; everything else is
   as in `CreatePrompt`.
   */
  function CreatePromptFixed(s: Store, caller: Option<int>, body: PromptBody, freshId: int, now: int): (r: Outcome)
    requires freshId !in s.prompts
    ensures r.response.status == CreatePrompt(s, caller, body, freshId, now).response.status
    ensures r.response.status != 200 ==> r == CreatePrompt(s, caller, body, freshId, now)
    ensures r.response.status == 200 ==>
      r.response.body.PromptJson?
      && (var p := CreatePrompt(s, caller, body, freshId, now).response.body.prompt;
          r.response.body.prompt == p.(upvotes := Some(0), downvotes := Some(0), likes := None))
    ensures r.response.status == 200 ==>
      r.store.prompts == s.prompts[freshId := r.response.body.prompt] && r.store.votes == s.votes
  {
    CreatePrompt(s, caller, body.(upvotes := None, downvotes := None, likes := None), freshId, now)
  }

  /**
   The vote endpoint as routed, with `rawId` the result of `parseInt` on the
   route parameter (None for `NaN`). The authentication and value checks come
   first; a non-numeric id then reaches the vote lookup, whose query fails, and
   the `catch` answers 500 without changing anything.
   */
  function VoteRoute(s: Store, caller: Option<int>, rawId: Option<int>, value: Option<int>): (r: Outcome)
    ensures rawId.Some? ==> r == Vote(s, caller, rawId.value, value)
    ensures rawId.None? ==> r.store == s
    ensures rawId.None? ==> (r.response.status == 401 <==> caller.None?)
    ensures rawId.None? ==> (r.response.status == 400 <==> caller.Some? && !(value.Some? && IsBallot(value.value)))
    ensures rawId.None? ==>
      (r.response.status == 500 <==> caller.Some? && value.Some? && IsBallot(value.value))
    ensures r.response.status == 200 ==> rawId.Some?
  {
    if rawId.Some? then Vote(s, caller, rawId.value, value)
    else if caller.None? then Outcome(Response(401, Text("Not authenticated")), s)
    else if value != Some(1) && value != Some(-1) then Outcome(Response(400, Text("Invalid vote value")), s)
    else Outcome(Response(500, ErrorJson("Failed to update vote")), s)
  }

  /** A non-numeric route id never reaches the votes: the request only fails or is refused. */
  lemma NonNumericIdChangesNothing(s: Store, caller: Option<int>, value: Option<int>)
    ensures VoteRoute(s, caller, None, value).store == s
    ensures VoteRoute(s, caller, None, value).response.status != 200
  {
  }

  /** Every prompt's score equals the sum of its vote values (an absent score reads as 0). */
  ghost predicate ScoresConsistent(s: Store) {
    forall p :: p in s.prompts ==> s.prompts[p].likes.GetOr(0) == Sum(VotesOn(s.votes, p))
  }

  /** A vote leaves the votes on every other prompt as they were. */
  lemma VotesOnOtherPromptUnchanged(s: Store, caller: Option<int>, promptId: int, value: Option<int>, q: int)
    requires q != promptId
    ensures VotesOn(Vote(s, caller, promptId, value).store.votes, q) == VotesOn(s.votes, q)
  {
    var votes' := Vote(s, caller, promptId, value).store.votes;
    assert VotesOn(votes', q).Keys == VotesOn(s.votes, q).Keys;
  }

  /** Score consistency is an invariant of the vote handler. */
  lemma {:induction false} VoteKeepsScoresConsistent(s: Store, caller: Option<int>, promptId: int, value: Option<int>)
    requires Valid(s) && ScoresConsistent(s)
    ensures ScoresConsistent(Vote(s, caller, promptId, value).store)
  {
    var r := Vote(s, caller, promptId, value).store;
    forall p | p in r.prompts
      ensures r.prompts[p].likes.GetOr(0) == Sum(VotesOn(r.votes, p))
    {
      if p != promptId {
        VotesOnOtherPromptUnchanged(s, caller, promptId, value, p);
      }
    }
  }

  /**
   Creating a prompt keeps the store valid and every score consistent when the
   body carries no score of its own: the new prompt has no votes.
   */
  lemma {:induction false} CreateKeepsScoresConsistent(s: Store, caller: Option<int>, body: PromptBody, freshId: int, now: int)
    requires freshId !in s.prompts
    requires Valid(s) && ScoresConsistent(s)
    requires body.likes.GetOr(0) == 0
    ensures Valid(CreatePrompt(s, caller, body, freshId, now).store)
    ensures ScoresConsistent(CreatePrompt(s, caller, body, freshId, now).store)
  {
    var r := CreatePrompt(s, caller, body, freshId, now).store;
    forall p | p in r.prompts
      ensures r.prompts[p].likes.GetOr(0) == Sum(VotesOn(r.votes, p))
    {
      if p == freshId {
        assert VotesOn(r.votes, p) == map[];
      }
    }
  }

  /**
   As written, a body that carries counters plants them in the new row: on an
   empty store, `{title, content, likes: 5, upvotes: 42}` creates a prompt
   with a score of 5 and 42 promotes although nobody has voted.
   */
  lemma CreateWithCountersBreaksScores()
    ensures var body := PromptBody(None, Some("t"), Some("c"), None, None, Some(42), None, Some(5), None, None);
      var r := CreatePrompt(Store(map[], map[]), Some(1), body, 7, 0);
      && r.response.status == 200
      && r.store.prompts[7].upvotes == Some(42)
      && CountValue(VotesOn(r.store.votes, 7), 1) == 0
      && !ScoresConsistent(r.store)
  {
    var body := PromptBody(None, Some("t"), Some("c"), None, None, Some(42), None, Some(5), None, None);
    var r := CreatePrompt(Store(map[], map[]), Some(1), body, 7, 0);
    assert VotesOn(r.store.votes, 7) == map[];
    assert r.store.prompts[7].likes.GetOr(0) != Sum(VotesOn(r.store.votes, 7));
  }

  /** The corrected create keeps the store valid and every score consistent, whatever the body carries. */
  lemma {:induction false} CreateFixedKeepsScoresConsistent(s: Store, caller: Option<int>, body: PromptBody, freshId: int, now: int)
    requires freshId !in s.prompts
    requires Valid(s) && ScoresConsistent(s)
    ensures Valid(CreatePromptFixed(s, caller, body, freshId, now).store)
    ensures ScoresConsistent(CreatePromptFixed(s, caller, body, freshId, now).store)
    ensures var r := CreatePromptFixed(s, caller, body, freshId, now);
      r.response.status == 200 ==> CountValue(VotesOn(r.store.votes, freshId), 1) == 0
  {
    CreateKeepsScoresConsistent(s, caller, body.(upvotes := None, downvotes := None, likes := None), freshId, now);
    var r := CreatePromptFixed(s, caller, body, freshId, now);
    assert VotesOn(r.store.votes, freshId) == map[];
  }

  /** Voting `v` twice from "no vote" restores the original vote relation and the prompt's score. */
  lemma VoteTwiceRestores(s: Store, user: int, promptId: int, v: int)
    requires Valid(s) && ScoresConsistent(s)
    requires IsBallot(v) && promptId in s.prompts && VoteKey(user, promptId) !in s.votes
    ensures var s2 := Vote(Vote(s, Some(user), promptId, Some(v)).store, Some(user), promptId, Some(v)).store;
      s2.votes == s.votes
      && s2.prompts[promptId].likes.GetOr(0) == s.prompts[promptId].likes.GetOr(0)
  {
    var s1 := Vote(s, Some(user), promptId, Some(v)).store;
    FirstVoteInserts(s, user, promptId, v);
    SecondVoteWithdraws(s, s1, user, promptId, v);
  }

  /** The first ballot from a user with no vote on the prompt inserts it and keeps the store valid. */
  lemma FirstVoteInserts(s: Store, user: int, promptId: int, v: int)
    requires Valid(s)
    requires IsBallot(v) && promptId in s.prompts && VoteKey(user, promptId) !in s.votes
    ensures var s1 := Vote(s, Some(user), promptId, Some(v)).store;
      Valid(s1) && s1.votes == s.votes[VoteKey(user, promptId) := v] && promptId in s1.prompts
  {
    assert Vote(s, Some(user), promptId, Some(v)).response.status == 200;
  }

  /** Repeating that ballot deletes it again, and the recomputed score is the score before the first ballot. */
  lemma SecondVoteWithdraws(s: Store, s1: Store, user: int, promptId: int, v: int)
    requires Valid(s1) && promptId in s1.prompts && ScoresConsistent(s)
    requires IsBallot(v) && promptId in s.prompts && VoteKey(user, promptId) !in s.votes
    requires s1.votes == s.votes[VoteKey(user, promptId) := v]
    ensures var s2 := Vote(s1, Some(user), promptId, Some(v)).store;
      s2.votes == s.votes
      && s2.prompts[promptId].likes.GetOr(0) == s.prompts[promptId].likes.GetOr(0)
  {
    var key := VoteKey(user, promptId);
    var o2 := Vote(s1, Some(user), promptId, Some(v));
    assert o2.response.status == 200;
    assert o2.store.votes == s.votes[key := v] - {key};
    assert s.votes[key := v] - {key} == s.votes;
  }

  /** Promoting and then downvoting from "no vote" leaves one downvote and no promote from that user. */
  lemma VoteSwitch(s: Store, user: int, promptId: int)
    requires promptId in s.prompts && VoteKey(user, promptId) !in s.votes
    ensures var s2 := Vote(Vote(s, Some(user), promptId, Some(1)).store, Some(user), promptId, Some(-1)).store;
      s2.votes == s.votes[VoteKey(user, promptId) := -1]
  {
    var s1 := Vote(s, Some(user), promptId, Some(1)).store;
    assert s1.votes[VoteKey(user, promptId)] == 1;
  }

  /** Taking in a new key raises the count of its value by one and leaves the other counts alone. */
  lemma CountInsert(m: map<VoteKey, int>, k: VoteKey, v: int, w: int)
    requires k !in m
    ensures CountValue(m[k := v], w) == CountValue(m, w) + (if v == w then 1 else 0)
  {
    CountRemove(m[k := v], k, w);
    assert m[k := v] - {k} == m;
  }

  /** The store after user `u` promotes prompt `p`. */
  function Promote(s: Store, u: int, p: int): (s': Store)
    ensures Valid(s) && p in s.prompts && VoteKey(u, p) !in s.votes ==>
      Valid(s') && p in s'.prompts && s'.votes == s.votes[VoteKey(u, p) := 1]
  {
    var o := Vote(s, Some(u), p, Some(1));
    assert Valid(s) && p in s.prompts ==> o.response.status == 200;
    o.store
  }

  /** Users promoting prompt `p` one after another, each with a request of their own. */
  function PromoteAll(s: Store, users: seq<int>, p: int): Store
    decreases |users|
  {
    if |users| == 0 then s
    else PromoteAll(Promote(s, users[0], p), users[1..], p)
  }

  /** Adding a vote on prompt `p` adds it to the votes on `p`. */
  lemma VotesOnInsert(votes: map<VoteKey, int>, key: VoteKey, v: int)
    ensures VotesOn(votes[key := v], key.promptId) == VotesOn(votes, key.promptId)[key := v]
  {
    assert VotesOn(votes[key := v], key.promptId).Keys == VotesOn(votes, key.promptId)[key := v].Keys;
  }

  /** One promote by a user who had not voted on `p` adds one to the prompt's promote count. */
  lemma PromoteStep(s: Store, u: int, p: int)
    requires Valid(s) && p in s.prompts && VoteKey(u, p) !in s.votes
    ensures Valid(Promote(s, u, p)) && p in Promote(s, u, p).prompts
    ensures Promote(s, u, p).votes == s.votes[VoteKey(u, p) := 1]
    ensures CountValue(VotesOn(Promote(s, u, p).votes, p), 1) == CountValue(VotesOn(s.votes, p), 1) + 1
  {
    var key := VoteKey(u, p);
    VotesOnInsert(s.votes, key, 1);
    CountInsert(VotesOn(s.votes, p), key, 1, 1);
  }

  /** The users after the first are still distinct and still have no vote on `p` once the first has voted. */
  lemma TailStaysFresh(votes: map<VoteKey, int>, users: seq<int>, p: int)
    requires |users| > 0
    requires forall i, j :: 0 <= i < j < |users| ==> users[i] != users[j]
    requires forall u :: u in users ==> VoteKey(u, p) !in votes
    ensures forall i, j :: 0 <= i < j < |users[1..]| ==> users[1..][i] != users[1..][j]
    ensures forall u :: u in users[1..] ==> VoteKey(u, p) !in votes[VoteKey(users[0], p) := 1]
  {
    var rest := users[1..];
    forall i, j | 0 <= i < j < |rest|
      ensures rest[i] != rest[j]
    {
      assert rest[i] == users[i + 1] && rest[j] == users[j + 1];
    }
    forall u | u in rest
      ensures VoteKey(u, p) !in votes[VoteKey(users[0], p) := 1]
    {
      var i :| 0 <= i < |rest| && rest[i] == u;
      assert users[i + 1] == u;
    }
  }

  /**
   Distinct users who had not voted on `p` each promote it: whatever their
   order, every one of them ends with a promote, no other vote changes, and
   the prompt's promote count grows by their number.
   */
  lemma {:induction false} DistinctPromotesAllCount(s: Store, users: seq<int>, p: int)
    requires Valid(s) && p in s.prompts
    requires forall i, j :: 0 <= i < j < |users| ==> users[i] != users[j]
    requires forall u :: u in users ==> VoteKey(u, p) !in s.votes
    ensures Valid(PromoteAll(s, users, p))
    ensures forall k :: k in PromoteAll(s, users, p).votes <==> k in s.votes || (k.promptId == p && k.userId in users)
    ensures forall k :: k in PromoteAll(s, users, p).votes ==>
      PromoteAll(s, users, p).votes[k] == if k in s.votes then s.votes[k] else 1
    ensures CountValue(VotesOn(PromoteAll(s, users, p).votes, p), 1) == CountValue(VotesOn(s.votes, p), 1) + |users|
    decreases |users|
  {
    if |users| > 0 {
      var u0, rest := users[0], users[1..];
      assert u0 in users;
      var s1 := Promote(s, u0, p);
      PromoteStep(s, u0, p);
      TailStaysFresh(s.votes, users, p);
      DistinctPromotesAllCount(s1, rest, p);
      assert PromoteAll(s, users, p) == PromoteAll(s1, rest, p);
      forall k: VoteKey
        ensures k.userId in users <==> k.userId == u0 || k.userId in rest
      {
        assert users == [u0] + rest;
      }
    }
  }
}
